=== FILE: README.md ===
# CloverSort experiment model in Dafny

CloverSort sorts digitised detector data into histograms. Before it can
sort anything it reads an *experiment* from a plain-text configuration file.
The experiment holds:

- the DAQ modules, each with its channel-name table, its filters (tree
  branches) and the detectors read through it;
- the detectors, each with its type and channel list;
- the runs.

At sort time an *event* binds one ROOT tree reader to every filter of every
module.

This project models that core and proves properties of the model:

- the number-list syntax (`0-3,7`) shared by `src/Experiment.cpp` and
  `src/Utilities.cpp`;
- the configuration loader, line by line;
- the lookups and edits on an experiment's modules and runs;
- `DAQModule` and `Detector` with their setters;
- the reader binding and lookup of `Event`;
- the argument check and experiment-name derivation of `main`.

Layout, one Dafny module per concern:

| file | module | role |
|---|---|---|
| `wrappers.dfy` | `Wrappers` | `Option` and `Result` |
| `seqs.dfy` | `Seqs` | searches and removals on sequences (`std::find`, `TString::Last`, `remove_if`/`erase`, `vector::erase`) |
| `std_text.dfy` | `StdText` | the standard-library text operations the loader uses: `find_first_not_of`/`find_last_not_of`, `operator>>` on an `istringstream`, `getline` with a delimiter, `std::stoi`, `setw(3)`/`setfill('0')`, `string::find` and `replace` |
| `number_spec.dfy` | `NumberString` | the meaning of a number list as a pure function, its round trip, and the 32-bit range counter as written |
| `utilities.dfy` | `Utilities` | `Utilities::parseNumberString`, the `UInt_t` copy |
| `detector.dfy` | `Detectors` | class `Detector` |
| `daq_module.dfy` | `DAQModules` | class `DAQModule`, default filters, `addFilter`/`removeFilter` |
| `config_spec.dfy` | `ConfigSpec` | the configuration file as a pure function of its lines (`Load`) and its properties |
| `experiment.dfy` | `ExperimentConfig` | `parseNumberString`, and class `Experiment`: the loader loop proved against `Load`, plus the lookups and edits |
| `event.dfy` | `Events` | class `Event` |
| `clover_sort.dfy` | `CloverSort` | `main` |

How the model relates to the source:

- **State is imperative where the source mutates it.** `Experiment`,
  `DAQModule`, `Detector` and `Event` are classes. Their vectors are `seq`
  fields that the methods reassign. A module's channel-name table is an
  `array`, because it is sized once and never resized.
- **Loops are methods with invariants.** The loops of the source (the
  configuration line loop, the token loop, the range loop, the filter-word
  loop, the run loop, the module search and the two binding loops) are
  `while` loops. Each method is proved against a pure specification
  function.
- **The loader's specification.** The loader (`Experiment::ReadLines` and
  the methods it calls) is proved to leave exactly the state that
  `ConfigSpec.Load` computes from the same lines, or to stop with the same
  error. `Load` describes the modules through `ModuleViews`, the module
  objects seen as values.
- **Exceptions become `Result` values.** A C++ exception is an `Err`
  (`ConfigError`, `ChannelError`, `EventError`). Loading stops at the first
  one (`FailureIsFinal`).
- **`std::stoi` is modelled as the standard defines it.** It skips leading
  white space, takes an optional sign and the longest run of digits, and
  throws on no digits or on a value outside `int`. So `" 7x"` is 7 and
  `"x"` is an error.
- **The dash of a range.** A token is split at its first `-`, so no list
  ever yields a negative number, and a token that starts with `-` is
  rejected (`LeadingDashFails`).
- **The experiment name is never set.** The constructor's option branch
  tests `current_section == "Experiment"`, but the header that sets the
  section is `ExperimentOptions`. The `Name` line is therefore never read,
  and a loaded experiment's name is always empty (`NameNeverSet`,
  `Experiment.FromConfig`). The model keeps this behaviour.
- **The two-argument call in `main`.** `src/CloverSort.cpp:28` calls
  `Experiment(experiment_name, config_path)`. No two-argument constructor
  is declared: `include/Experiment.hpp:16-17` declares
  `Experiment(const TString file_name)` and `Experiment()`. The model
  follows the one-argument constructor defined at `src/Experiment.cpp:43`.
  `Launch` loads from the path and derives the name separately
  (`ExperimentName`).
- **The detector constructor.** `src/Detector.cpp:3` is the definition the
  model follows: name, type and channels. `include/Detector.hpp:14`
  declares a different signature with a module back-pointer, and the
  loader at `src/Experiment.cpp:160` passes four arguments.
- **Two behaviours worth knowing.** Every module gets the constructor's
  default of 16 channels, whatever its type, with every channel name still
  empty: `src/Experiment.cpp:120` passes no count, and the default is set
  at `src/DAQModule.cpp:5`. `FromConfig` states this for every module it
  loads (`DefaultChannels`). A
  `default` word on a module line appends the defaults again, so the
  filter list can hold duplicates.
- **The run constructor.** `src/Experiment.cpp:204` passes
  `(run_number, run_description, run_type, file_name, tree_name)`.
  `src/Run.cpp:3` takes `(runNumber, fileName, treeName, runName, runType)`.
  As written, the description would be opened as the ROOT file
  (`src/Run.cpp:6-9`) and the run type would be used as the tree name.
  `include/Run.hpp:16` declares yet another, four-argument signature. The
  model records each field under the name the caller gives it
  (`ConfigSpec.Run`, `ConfigSpec.RunsOf`), which is what the call
  evidently intends.

## Model

| member | source | states |
|---|---|---|
| Seqs.IndexOf | src/DAQModule.cpp:87 | `std::find`: the first index holding the value, and `None` exactly when the value is absent |
| Seqs.LastIndexOf | src/CloverSort.cpp:23 | `TString::Last`: the last index holding the value, with none after it; `None` exactly when it is absent |
| Seqs.RemoveFirst | src/DAQModule.cpp:100-104 | `erase` of the first occurrence: without the value the sequence is unchanged; otherwise exactly that one element is gone |
| Seqs.RemoveFirstUndoesAppend | src/DAQModule.cpp:97-109 | removing a value just appended, when it was absent before, gives back the original sequence |
| Seqs.Without | src/Experiment.cpp:246-252 | the `remove_if`/`erase` idiom: never longer than the input, holds only input elements, and is the input itself when no key matches |
| Seqs.WithoutSpec | src/Experiment.cpp:246-252 | every element whose key differs survives the removal, and every survivor is such an element |
| Seqs.WithoutAppend | src/Experiment.cpp:246-252 | the removal keeps the survivors in their order: removing from `a + b` is removing from `a`, then from `b` |
| Seqs.WithoutUndoesAppend | src/Experiment.cpp:255-269 | removing a key that only the last appended element carries gives back the sequence from before the append |
| StdText.FirstNonBlank | src/Experiment.cpp:67 | `find_first_not_of(" \t")`: the first position that is not a space or a tab, or `None` when there is none |
| StdText.LastNonBlank | src/Experiment.cpp:68 | `find_last_not_of(" \t")`: the last such position |
| StdText.Trim | src/Experiment.cpp:66-73 | the trimmed line is non-empty, starts and ends with a non-blank, and is exactly the slice between the first and last non-blank |
| StdText.TrimLeading | src/Experiment.cpp:97-99 | the value without its leading blanks when it has a non-blank, and unchanged otherwise |
| StdText.SkipSpaces | src/Experiment.cpp:111 | the white space `>>` skips: a suffix whose first character is not white space, everything before it white space |
| StdText.WordAt | src/Experiment.cpp:111 | one `>>` extraction: the longest prefix without white space, ending at white space or at the end |
| StdText.AfterFirstWord | src/Experiment.cpp:93-95 | what `getline` reads after one `>>`: a suffix of the line; `AfterFirstWordIsRest` pins it down exactly |
| StdText.SkipSpacesOfBlanks | src/Experiment.cpp:93 | `>>` skips exactly the leading white space and stops at the first other character |
| StdText.AfterFirstWordIsRest | src/Experiment.cpp:93-95 | after blanks and one word, `getline` reads exactly the rest of the line, from the white space that ends the word |
| StdText.Words | src/Experiment.cpp:111 | the successive words of the `>>` extraction loops (also lines 122, 142 and 184): never more words than characters; `WordsAreWords`, `WordsCons` and `WordsOfUnwords` pin them down |
| StdText.WordsAreWords | src/Experiment.cpp:122 | every word `>>` extracts is non-empty and holds no white space |
| StdText.WordsOfUnwords | src/Experiment.cpp:184 | reading words with `>>` gives back the words joined by spaces |
| StdText.WordsCons | src/Experiment.cpp:110-111 | a word followed by white space, or by nothing, is the first word extracted |
| StdText.Split | src/Experiment.cpp:19 | the tokens of `getline(iss, token, ',')` never hold the comma, and there are none exactly for the empty text |
| StdText.SplitJoin | src/Experiment.cpp:19 | splitting undoes joining with the delimiter, when no token holds it and the last is non-empty |
| StdText.SplitAppend | src/Experiment.cpp:19 | splitting `a`, the delimiter, then `b` gives the tokens of `a` followed by those of `b`, when `a` is non-empty and does not end in the delimiter |
| StdText.Stoi | src/Experiment.cpp:26-27 | `std::stoi`: a value within 32-bit `int`, negative only for text with a `-`, and an error on empty text |
| StdText.StoiOfDecimal | src/Experiment.cpp:36 | `std::stoi` reads back the decimal text of any number up to `INT_MAX` |
| StdText.StoiOutOfRange | src/Experiment.cpp:36 | `std::stoi` throws `out_of_range` on digits whose value is above `INT_MAX` |
| StdText.Pad3 | src/Experiment.cpp:194-195 | `setw(3) << setfill('0')`: digits whose value is the number, at least three of them |
| StdText.StoiOfPad3 | src/Experiment.cpp:194-197 | `std::stoi` reads the number back from its zero-padded text |
| StdText.FindSub | src/Experiment.cpp:168 | `string::find`: the first position where the pattern occurs, or `None` when it occurs nowhere |
| StdText.ReplaceFirst | src/Experiment.cpp:197 | `replace(find(p), |p|, rep)`: the text before the first occurrence, then the replacement, then the text after it; unchanged without one |
| NumberString.Range | src/Experiment.cpp:28-31 | the pushed run `a, a+1, ..., b`: length `b - a + 1`, or none when `a > b`, with element `k` equal to `a + k` |
| NumberString.ExpandToken | src/Experiment.cpp:22-37 | one token: a token without `-` yields exactly one number; `ExpandTokenInRange`, `ExpandTokenConsecutive`, `SingleToken`, `RangeToken`, `LeadingDashFails` and `NoDigitFails` give the rest |
| NumberString.ExpandTokenConsecutive | src/Experiment.cpp:23-31 | whatever a token yields is a run of consecutive numbers, the range from its first to its last |
| NumberString.ExpandTokenInRange | src/Experiment.cpp:22-37 | a token never yields a negative number or one above `INT_MAX` |
| NumberString.ExpandTokens | src/Experiment.cpp:19-38 | the token loop fails exactly when some token fails, and otherwise yields only numbers in `0..INT_MAX` |
| NumberString.ParseNumbers | src/Experiment.cpp:13-40 | `parseNumberString`: every number it returns lies in `0..INT_MAX` |
| NumberString.ExpandTokensAppend | src/Experiment.cpp:19-38 | tokens expand independently: the expansion of `x + y` is that of `x` followed by that of `y` |
| NumberString.ParseNumbersAppend | src/Experiment.cpp:19-38 | a list joined by a comma parses as its two parts one after the other |
| NumberString.SingleToken | src/Experiment.cpp:33-37 | the decimal text of a number up to `INT_MAX` is that single number |
| NumberString.RangeToken | src/Experiment.cpp:23-31 | `a-b` for numbers up to `INT_MAX` is the range from `a` to `b` |
| NumberString.LeadingDashFails | src/Experiment.cpp:22-26 | a token starting with `-` is rejected, because `stoi("")` throws |
| NumberString.NoDigitFails | src/Experiment.cpp:22-37 | a token without a digit, the empty token included, is rejected |
| NumberString.StoiWithoutDigits | src/Experiment.cpp:36 | `std::stoi` throws on text without a digit |
| NumberString.EmptyEntryFails | src/Experiment.cpp:19-38 | a list with an empty entry (`,,`) is rejected wherever the entry is |
| NumberString.LeadingCommaFails | src/Experiment.cpp:19-38 | a list starting with a comma is rejected |
| NumberString.EntryText | src/Experiment.cpp:22-37 | an entry's text is non-empty and holds no comma |
| NumberString.ParseFormat | src/Experiment.cpp:13-40 | writing entries as `n` and `lo-hi` joined by commas and parsing them back gives the numbers they stand for |
| NumberString.ParseOneToken | src/Experiment.cpp:19-21 | text without a comma is one token |
| NumberString.ParseNumbersStep | src/Experiment.cpp:19-38 | one iteration: the parse is the first token's expansion followed by the parse of the rest |
| NumberString.Increment32 | src/Experiment.cpp:28 | `++i` on an `Int_t` stays within 32 bits, wrapping past `INT_MAX` |
| NumberString.CounterCounts | src/Experiment.cpp:28 | below `INT_MAX` the 32-bit counter counts like an integer |
| NumberString.RangeToIntMaxNeverEnds | src/Experiment.cpp:28-31 | a range ending at `INT_MAX`: the counter reaches `INT_MAX`, wraps to `INT_MIN` at the next step, and never exceeds `end`, so the guard `i <= end` never fails |
| Utilities.ToUInt | src/Utilities.cpp:32 | the `Int_t` to `UInt_t` conversion of `push_back`: the identity on non-negative values, plus `2^32` on negative ones |
| Utilities.ToUInts | src/Utilities.cpp:30-33 | the conversion element by element, length kept |
| Utilities.Converted | src/Utilities.cpp:15-42 | failure is kept, and a success is converted element by element |
| Utilities.ParseNumberString | src/Utilities.cpp:15-42 | the `UInt_t` copy returns the numbers of `NumberString.ParseNumbers` converted to `UInt_t`, and fails exactly when it does |
| Utilities.PushToken | src/Utilities.cpp:24-39 | one token's numbers appended after those already pushed, or failure exactly when the token fails |
| Utilities.PushRange | src/Utilities.cpp:30-33 | the range loop appends the converted range |
| Utilities.CopiesAgree | src/Utilities.cpp:15-42 | the two copies agree: both fail together, and the `UInt_t` numbers have exactly the values of the `Int_t` ones |
| Utilities.ToUIntsAppend | src/Utilities.cpp:30-38 | converting a concatenation is concatenating the conversions |
| Detectors.Detector.constructor | src/Detector.cpp:3-6 | a detector with the given name, type and channels |
| Detectors.Detector.GetName | src/Detector.cpp:12-15 | the stored name; the constructor and `SetName` state their effect through it |
| Detectors.Detector.GetType | src/Detector.cpp:17-20 | the stored type; the constructor and `SetType` state their effect through it |
| Detectors.Detector.GetChannels | src/Detector.cpp:22-25 | the stored channel list; the constructor and `SetChannels` state their effect through it |
| Detectors.Detector.SetName | src/Detector.cpp:27-30 | the name reads back as set; type and channels are unchanged |
| Detectors.Detector.SetType | src/Detector.cpp:32-35 | the type reads back as set; name and channels are unchanged |
| Detectors.Detector.SetChannels | src/Detector.cpp:37-40 | the channels read back as set; name and type are unchanged |
| DAQModules.DefaultFilters | src/DAQModule.cpp:60-82 | the four `mdpp16scp` filters and the five `mdpp16qdc` filters, in order; empty exactly for a type outside `VALID_MODULE_TYPES` |
| DAQModules.DefaultFiltersDistinct | src/DAQModule.cpp:60-82 | no type's defaults name a filter twice |
| DAQModules.DefaultsTwiceRepeat | src/DAQModule.cpp:60-77 | generating the defaults a second time for a supported type leaves duplicates, because there is no check |
| DAQModules.WithFilter | src/DAQModule.cpp:84-95 | the list after `addFilter`: it holds the name, extends the old list by at most that one name, and holds nothing else |
| DAQModules.WithFilterSpec | src/DAQModule.cpp:84-95 | `addFilter` appends exactly when the name is absent, leaves the list unchanged exactly when present, and keeps a duplicate-free list duplicate-free |
| DAQModules.WithFilterIdempotent | src/DAQModule.cpp:84-95 | adding the same filter twice is adding it once |
| DAQModules.RemoveUndoesAdd | src/DAQModule.cpp:84-109 | `removeFilter` undoes an `addFilter` of an absent name |
| DAQModules.DAQModule.constructor | src/DAQModule.cpp:5-10 | name and type as given, `channelNum` empty channel names (16 by default), the type's default filters and no detectors |
| DAQModules.DAQModule.GetName | src/DAQModule.cpp:16-19 | the stored name; `SetName` states its effect through it |
| DAQModules.DAQModule.GetType | src/DAQModule.cpp:20-23 | the stored type; `SetType` states its effect through it |
| DAQModules.DAQModule.GetFilters | src/DAQModule.cpp:40-43 | the stored filter list, which `AddFilter`, `RemoveFilter` and `GenerateDefaultFilters` change |
| DAQModules.DAQModule.GetChannelName | src/DAQModule.cpp:25-28 | `.at(channel)`: the name in the slot exactly when the channel is in range, `out_of_range` otherwise |
| DAQModules.DAQModule.GetChannel | src/DAQModule.cpp:30-38 | the first channel carrying the name; an error exactly when no channel carries it |
| DAQModules.DAQModule.SetName | src/DAQModule.cpp:45-48 | the name reads back as set; the other fields are unchanged |
| DAQModules.DAQModule.SetType | src/DAQModule.cpp:50-53 | the type reads back as set; the other fields are unchanged |
| DAQModules.DAQModule.SetChannelName | src/DAQModule.cpp:55-58 | in range, only that slot changes and reads back the new name; out of range, `out_of_range` and nothing changes |
| DAQModules.DAQModule.GenerateDefaultFilters | src/DAQModule.cpp:60-82 | the type's defaults appended to the filters; nothing else changes |
| DAQModules.DAQModule.AddFilter | src/DAQModule.cpp:84-95 | the filters become `WithFilter` of the old ones; nothing else changes |
| DAQModules.DAQModule.RemoveFilter | src/DAQModule.cpp:97-109 | the first occurrence of the name is erased; nothing else changes |
| DAQModules.DAQModule.AddDetector | src/Experiment.cpp:161 | the detector appended to the module's detectors; nothing else changes |
| ConfigSpec.ApplyFilterWords | src/Experiment.cpp:121-133 | the filter words only ever extend the list |
| ConfigSpec.FilterWordsDistinct | src/Experiment.cpp:121-133 | without a `default` word the filters stay free of duplicates |
| ConfigSpec.FilterWordsPresent | src/Experiment.cpp:121-133 | every word other than `default` ends up among the filters |
| ConfigSpec.DefaultWordDuplicates | src/Experiment.cpp:120-127 | a `default` word on a supported type repeats the defaults the constructor already generated |
| ConfigSpec.ModuleLine | src/Experiment.cpp:107-136 | fewer than two words change nothing; an unsupported type is `Unsupported module type`; otherwise exactly one module is appended, built from the line; runs are never touched |
| ConfigSpec.FindModule | src/Experiment.cpp:148-156 | the first module of the name; `None` exactly when no module has it |
| ConfigSpec.DetectorLine | src/Experiment.cpp:138-162 | fewer than four words change nothing; a bad channel list fails; with no modules nothing changes; an unknown module fails; otherwise only the first module of the name gains the detector; runs and the module count never change |
| ConfigSpec.DetectorLineFound | src/Experiment.cpp:148-161 | a line naming a present module attaches the detector to the first module of that name |
| ConfigSpec.RunFileName | src/Experiment.cpp:191-202 | the pattern with its first `---` replaced by the three-digit number, or the pattern itself without `---` |
| ConfigSpec.RunFileNameInjective | src/Experiment.cpp:191-198 | different run numbers of a pattern with `---` get different file names |
| ConfigSpec.RunNumberInFileName | src/Experiment.cpp:194-197 | the run number is read back from the digits of its file name |
| ConfigSpec.RunsOf | src/Experiment.cpp:189-206 | one run per number, in list order, with the line's description, type and tree and the number's file name |
| ConfigSpec.RunLine | src/Experiment.cpp:165-207 | a `FilenamePattern` line at position 0 only replaces the pattern; any other line with fewer than four words changes nothing; a bad number list fails with that list; otherwise the runs of the listed numbers are appended, with modules and pattern unchanged; section and name are never touched |
| ConfigSpec.OptionLine | src/Experiment.cpp:89-105 | an option line changes nothing but the name, and only a line whose first word is `Name` changes it |
| ConfigSpec.NameOptionLine | src/Experiment.cpp:92-103 | `Name <value>` sets the name to the value as written and changes nothing else |
| ConfigSpec.ValueAfterWordOf | src/Experiment.cpp:92-99 | a word, a space and a value starting with a non-blank: the keyword and the trimmed `getline` give back exactly that value |
| ConfigSpec.PatternLine | src/Experiment.cpp:168-178 | the text after `FilenamePattern` and a space is stored as the pattern exactly as written |
| ConfigSpec.SkippedLinesChangeNothing | src/Experiment.cpp:66-78 | blank lines and lines opening with `#` change nothing; a non-blank line that starts with a space or tab is never skipped and, unless it is a section header, is processed as the content of its trimmed text, so a `#` after leading blanks is not a comment |
| ConfigSpec.HeaderSwitchesSection | src/Experiment.cpp:80-85 | a header line only switches the section |
| ConfigSpec.OtherLinesChangeNothing | src/Experiment.cpp:88-207 | a line outside the four handled sections changes nothing |
| ConfigSpec.StepKeepsNameUnset | src/Experiment.cpp:80-105 | no line leaves the known sections, so no line sets the name |
| ConfigSpec.NameNeverSet | src/Experiment.cpp:89-103 | after any lines the section is a known header or empty, and the experiment name is empty |
| ConfigSpec.FailureIsFinal | src/Experiment.cpp:64-208 | once a line fails, loading the whole file fails with that error |
| ConfigSpec.SectionLine | src/Experiment.cpp:86-207 | the section dispatch: a content line keeps the section, keeps the name outside the option section, adds at most one module and only appends runs |
| ConfigSpec.Step | src/Experiment.cpp:66-86 | one iteration: only a header line moves to another section, and a line never removes a module or a run and adds at most one module |
| ConfigSpec.Load | src/Experiment.cpp:64-208 | the whole line loop: the reader after all the lines or the first error, with no more modules than lines; `NameNeverSet` and `FailureIsFinal` state the rest |
| ExperimentConfig.ParseNumberString | src/Experiment.cpp:13-40 | the token loop returns exactly `NumberString.ParseNumbers` of its text |
| ExperimentConfig.PushRange | src/Experiment.cpp:28-31 | the range loop appends exactly `Range(start, end)` |
| ExperimentConfig.DistinctAppend | src/Experiment.cpp:135 | appending a module not already present keeps the modules distinct |
| ExperimentConfig.ModuleNames | src/Experiment.cpp:223-225 | the names the lookup compares, one per module, in order |
| ExperimentConfig.RunNumbers | src/Experiment.cpp:233-235 | the numbers the lookup compares, one per run, in order |
| ExperimentConfig.NoModuleOfName | src/Experiment.cpp:244-253 | after `removeDAQModule` of a name, no module of that name is left |
| ExperimentConfig.NoRunOfNumber | src/Experiment.cpp:260-269 | after `removeRun` of a number, no run of that number is left |
| ExperimentConfig.RemoveRunUndoesAddRun | src/Experiment.cpp:255-269 | `removeRun` of a number that only the run just added carries gives back the runs from before `addRun` |
| ExperimentConfig.BuildModule | src/Experiment.cpp:120-133 | a fresh module with 16 channel slots, each still an empty name, whose view is exactly the module the line specifies |
| ExperimentConfig.AddFilterWords | src/Experiment.cpp:121-133 | the word loop leaves the filters that `ApplyFilterWords` computes; nothing else changes |
| ExperimentConfig.FilterWordStep | src/Experiment.cpp:124-132 | one word applied: defaults appended for `default`, `addFilter` otherwise, and the remaining words continue from there |
| ExperimentConfig.ViewOfNewModule | src/Experiment.cpp:120-133 | a module with the line's name, type and filters and no detectors is the module the line specifies |
| ExperimentConfig.Experiment.Empty | src/Experiment.cpp:43-45 | the file name as given, no name, no modules, no runs |
| ExperimentConfig.Experiment.FromConfig | src/Experiment.cpp:43-213 | a file that cannot be opened is an error; otherwise the experiment holds exactly the name, modules and runs that `Load` computes, or fails with `Load`'s error; the name is always empty, and every module has the 16 unnamed channels of the default table (`DefaultChannels`) |
| ExperimentConfig.Experiment.ReadLines | src/Experiment.cpp:64-208 | the line loop leaves the state `Load` computes for all the lines, or stops with its error; the module names stay distinct and every module keeps 16 unnamed channels (`DefaultChannels`) |
| ExperimentConfig.Experiment.ReadLine | src/Experiment.cpp:66-86 | one iteration agrees with `Step`: the new section, pattern, modules and runs, or the same error; modules with 16 unnamed channels each stay so |
| ExperimentConfig.Experiment.ReadSectionLine | src/Experiment.cpp:86-207 | a trimmed non-header line agrees with `SectionLine` for the current section; modules with 16 unnamed channels each stay so |
| ExperimentConfig.Experiment.GetDAQModule | src/Experiment.cpp:221-229 | the first module of the name; `None` (`nullptr`) exactly when no module has it |
| ExperimentConfig.Experiment.GetRun | src/Experiment.cpp:231-237 | the first run of the number; `None` exactly when no run has it |
| ExperimentConfig.Experiment.AddDAQModule | src/Experiment.cpp:239-242 | the module appended; the lookup now finds it unless an earlier module shadows the name |
| ExperimentConfig.Experiment.RemoveDAQModule | src/Experiment.cpp:244-253 | every module of the name is dropped and the others are kept in order (`Without`, whose order `WithoutAppend` states); the lookup then finds none |
| ExperimentConfig.Experiment.AddRun | src/Experiment.cpp:255-258 | the run appended; the lookup now finds it unless an earlier run has the number |
| ExperimentConfig.Experiment.RemoveRun | src/Experiment.cpp:260-269 | every run of the number is dropped and the others are kept in order (`Without`, whose order `WithoutAppend` states); the lookup then finds none |
| ExperimentConfig.Experiment.ReadModuleLine | src/Experiment.cpp:107-136 | agrees with `ModuleLine`: the same error, or exactly the new module's view appended; modules with 16 unnamed channels each stay so |
| ExperimentConfig.Experiment.AppendModule | src/Experiment.cpp:120-135 | one fresh module appended whose view is the line's module and whose channel table holds 16 empty names (`Unnamed`); the earlier modules' views are unchanged |
| ExperimentConfig.Experiment.ReadDetectorLine | src/Experiment.cpp:138-162 | agrees with `DetectorLine`: the same error, or exactly the modules it computes |
| ExperimentConfig.Experiment.AttachToNamedModule | src/Experiment.cpp:148-161 | once the channels are parsed, agrees with `DetectorLine`: no module leaves everything as it was, otherwise the detector goes to the first module of the name, and a missing name is the error `DetectorLine` gives |
| ExperimentConfig.Experiment.ReadRunLine | src/Experiment.cpp:165-207 | agrees with `RunLine`: the same error, or the new pattern and runs; modules and name are unchanged |
| ExperimentConfig.Experiment.AppendRuns | src/Experiment.cpp:189-206 | the runs of `RunsOf` appended in list order |
| ExperimentConfig.Experiment.ReadOptionLine | src/Experiment.cpp:89-105 | agrees with `OptionLine`: only a `Name` line changes the name |
| ExperimentConfig.Experiment.LocateModule | src/Experiment.cpp:148-156 | the index of the first module of the name, or the module count when none has it |
| ExperimentConfig.Experiment.AttachDetector | src/Experiment.cpp:158-161 | only the chosen module's view changes, gaining the detector at the end of its list |
| Events.BindingOf | src/Event.cpp:12-21 | the try-array-then-value choice: the reader reads the filter's own branch, element-wise exactly when an array reader can be made |
| Events.Bindings | src/Event.cpp:8-23 | the readers after the constructor loop: a module has an entry exactly when it has filters, and the entry holds one reader per filter name |
| Events.ModuleBindings | src/Event.cpp:10-22 | one reader per distinct filter of the module, and each is the one `BindingOf` chooses |
| Events.BindingsStep | src/Event.cpp:8-23 | binding one more module adds its filters' readers to its entry; a module without filters adds nothing |
| Events.BindingsAppend | src/Event.cpp:10-22 | binding one more filter adds that filter's reader |
| Events.Event.constructor | src/Event.cpp:4-24 | the reader map is exactly `Bindings`: for every module with filters, an array reader for each filter with an array branch and a value reader otherwise |
| Events.Event.BindModule | src/Event.cpp:10-22 | the inner loop adds the module's filters' readers to its entry, and creates no entry for a module without filters |
| Events.Event.BindFilter | src/Event.cpp:12-21 | `addArray`, then `addValue` when it throws: the filter gets the reader `BindingOf` chooses |
| Events.Event.AddArray | src/Event.cpp:54-57 | throws exactly when no array reader can be made; the module's entry exists afterwards even then |
| Events.Event.AddValue | src/Event.cpp:59-62 | `insert_or_assign` of a value reader into the module's entry |
| Events.Event.GetData | src/Event.cpp:30-52 | `DAQModule not found` exactly without an entry for the module, `Filter not found` without the filter, and otherwise element `channel` of an array branch or the value of a scalar branch |
| Events.FiltersReadTheirBranch | src/Event.cpp:4-52 | after construction, every filter of every module reads the branch of its own name, element-wise exactly when it is an array branch |
| Events.FilterlessModuleNotFound | src/Event.cpp:8-36 | a module without filters is never entered, so `getData` reports it missing |
| CloverSort.BaseName | src/CloverSort.cpp:23-24 | the suffix after the last `/` (the whole path without one), holding no `/` |
| CloverSort.StripExtension | src/CloverSort.cpp:25-26 | the prefix before the last `.` (the whole name without one); no `.` follows the cut |
| CloverSort.ExperimentName | src/CloverSort.cpp:21-26 | the experiment name holds no `/` |
| CloverSort.LastIndexOfJoin | src/CloverSort.cpp:23-25 | the last separator of `prefix + c + rest`, when `rest` holds no `c`, is the one between them |
| CloverSort.BaseNameOfJoin | src/CloverSort.cpp:23-24 | a file in a directory has its own name as base name |
| CloverSort.StripExtensionOfJoin | src/CloverSort.cpp:25-26 | only the last extension is stripped |
| CloverSort.NameOfConfigPath | src/CloverSort.cpp:21-26 | `dir/stem.ext` names the experiment `stem`, dots in the stem included |
| CloverSort.ExtensionOnlyGivesEmptyName | src/CloverSort.cpp:25-26 | a file name such as `.cfg` gives the empty experiment name |
| CloverSort.Launch | src/CloverSort.cpp:11-37 | exit code 1 without a configuration path; otherwise 0 exactly when the file opens and loads, and 1 when the constructor throws (a detector line naming an unknown module, undefined behaviour in the source at `src/Experiment.cpp:160-161`, counts as a throw) |

## Left out

- Console output is not modelled: the `INFO` and `WARN` messages, `printInfo`, the usage message and the printed error of `main`. It has no effect on state.
- Opening files is not modelled. A configuration file is given as its lines (`Option<seq<string>>`, `None` when it cannot be opened). Run files, ROOT trees and `TTreeReader` are not part of this model.
- Events.Event.GetData: returns a description of the read (`ElementOf`, `ValueOf`) instead of a `Double_t`. The values in a tree entry are outside the model.
- Events.Event.AddArray: whether ROOT's `TTreeReaderArray` constructor throws for a scalar branch is a property of the tree. It is the parameter `arrayBranches`.
- The `Unsupported ReaderVar type` branch of `getData` (src/Event.cpp:49-50) is not modelled: the reader variant only ever holds the two reader types.
- `Run` is a value (`ConfigSpec.Run`) rather than a pointer to an object. Its constructor and the ROOT file it opens are not part of this model. Pointer identity is modelled only for modules and detectors.
- ConfigSpec.RunsOf: records description, type, file name and tree name as the call at `src/Experiment.cpp:204` names them. It does not model the argument order of `src/Run.cpp:3`, under which the description is the file opened and the run type the tree read.
- DAQModules.DAQModule.AddDetector: the body of `addDetector` is not part of the sources. It is modelled as an append.
- Detectors.Detector.constructor: the module back-pointer declared in `include/Detector.hpp:14-36` is not modelled, because the constructor defined in `src/Detector.cpp:3` takes none.
- Detectors.Detector.GetChannels: returns the channel list as a value. `src/Detector.cpp:22-25` returns a `const std::vector<Int_t> *` to the detector's own vector, while `include/Detector.hpp:21` declares a `const std::vector<Int_t> &`. Neither lets a caller change the list. A held pointer does see later `setChannels` updates, though, and it dangles once the detector is freed. That aliasing is not modelled.
- DAQModules.DAQModule.constructor: `channelNum` is a `nat`. A negative `Int_t` count, on which the `vector` constructor throws, is not modelled.
- ConfigSpec.DetectorLine: a detector line naming an unknown module dereferences a null pointer in the source (undefined behaviour). The model reports `UnknownModule` there.
- ExperimentConfig.Experiment.FromConfig: the memory allocated with `new` is not modelled, and neither is the destructor.
- Concurrency, histogramming, sorting and the progress bar of `src/Utilities.cpp` are outside the modelled core.

## Findings

| source | as written | input that shows it | evidently intended | confidence | as-written member | corrected member |
|---|---|---|---|---|---|---|
| src/Experiment.cpp:28 (also src/Utilities.cpp:30) | `for (Int_t i = start; i <= end; ++i)`: with `end == INT_MAX` the guard holds for every 32-bit `i`, so `++i` wraps to `INT_MIN` and the loop pushes numbers without end | the list `0-2147483647` | push `start, ..., INT_MAX` and stop | not executed | NumberString.RangeToIntMaxNeverEnds | ExperimentConfig.PushRange |

=== FILE: clover_sort.dfy ===
/** src/CloverSort.cpp: the program's entry point, which checks its
    arguments, derives the experiment's name from the configuration path
    and loads the experiment. */
module CloverSort {
  import opened Wrappers
  import opened Seqs
  import opened ConfigSpec
  import opened ExperimentConfig

  /** What follows the last '/' of a path (`TString::Last('/')`), or the
      whole path when it has none. */
  function BaseName(path: string): (f: string)
    ensures |f| <= |path| && path[|path| - |f|..] == f
    ensures '/' !in f
    ensures '/' !in path <==> f == path
    ensures '/' in path ==> path[|path| - |f| - 1] == '/'
  {
    match LastIndexOf(path, '/')
    case None => path
    case Some(i) => path[i + 1..]
  }

  /** What precedes the last '.' of a file name, or the whole name when it
      has none. */
  function StripExtension(fileName: string): (name: string)
    ensures |name| <= |fileName| && fileName[..|name|] == name
    ensures '.' !in fileName ==> name == fileName
    ensures '.' in fileName ==> |name| < |fileName| && fileName[|name|] == '.' && '.' !in fileName[|name| + 1..]
  {
    match LastIndexOf(fileName, '.')
    case None => fileName
    case Some(i) => fileName[..i]
  }

  /** The experiment name: the configuration file's name without directory
      and without its last extension. */
  function ExperimentName(configPath: string): (name: string)
    ensures '/' !in name
  {
    StripExtension(BaseName(configPath))
  }

  /** The last separator of `prefix + [c] + rest`, when `rest` holds no
      `c`, is the one between them. */
  lemma {:induction false} LastIndexOfJoin(prefix: string, c: char, rest: string)
    requires c !in rest
    ensures LastIndexOf(prefix + [c] + rest, c) == Some(|prefix|)
  {
    var s := prefix + [c] + rest;
    assert s[|prefix|] == c;
    assert s[|prefix| + 1..] == rest;
  }

  /** A file in a directory has its own name as base name. */
  lemma BaseNameOfJoin(dir: string, file: string)
    requires '/' !in file
    ensures BaseName(dir + "/" + file) == file
  {
    LastIndexOfJoin(dir, '/', file);
    assert (dir + "/" + file)[|dir| + 1..] == file;
  }

  /** Only the last extension is stripped. */
  lemma StripExtensionOfJoin(stem: string, ext: string)
    requires '.' !in ext
    ensures StripExtension(stem + "." + ext) == stem
  {
    LastIndexOfJoin(stem, '.', ext);
    assert (stem + "." + ext)[..|stem|] == stem;
  }

  /** A path `dir/stem.ext`, with no '/' in stem or extension and no '.'
      in the extension, names the experiment `stem`; the stem may itself
      hold dots. */
  lemma NameOfConfigPath(dir: string, stem: string, ext: string)
    requires '/' !in stem && '/' !in ext && '.' !in ext
    ensures ExperimentName(dir + "/" + stem + "." + ext) == stem
  {
    var file := stem + "." + ext;
    assert dir + "/" + stem + "." + ext == dir + "/" + file;
    assert '/' !in file;
    BaseNameOfJoin(dir, file);
    StripExtensionOfJoin(stem, ext);
  }

  /** A file name that is only an extension, such as `.cfg`, gives the
      empty experiment name. */
  lemma ExtensionOnlyGivesEmptyName(ext: string)
    requires '/' !in ext && '.' !in ext
    ensures ExperimentName("." + ext) == ""
  {
    assert '/' !in "." + ext;
    StripExtensionOfJoin("", ext);
    assert "" + "." + ext == "." + ext;
  }

  /** `main`: a usage error without a configuration path; otherwise 0 when
      the experiment loads and 1 when its constructor throws. The file's
      lines are given: `None` when it cannot be opened. */
  method Launch(args: seq<string>, configFile: Option<seq<string>>) returns (exitCode: int)
    ensures |args| < 2 ==> exitCode == 1
    ensures |args| >= 2 ==> (exitCode == 0 <==> configFile.Some? && Load(configFile.value).Ok?)
    ensures exitCode == 0 || exitCode == 1
  {
    if |args| < 2 {
      return 1;
    }
    var experiment := Experiment.FromConfig(args[1], configFile);
    if experiment.Err? {
      return 1;
    }
    return 0;
  }
}

=== FILE: config_spec.dfy ===
/** The configuration file of an experiment, read line by line as the
    `Experiment` constructor in src/Experiment.cpp reads it, stated as a
    pure function of the lines: the reader's state after each line. */
module ConfigSpec {
  import opened Wrappers
  import opened Seqs
  import opened StdText
  import opened NumberString
  import opened DAQModules

  /** The four section headers. */
  const SectionNames: seq<string> := ["ExperimentOptions", "DAQModules", "Detectors", "Runs"]

  /** The section the option branch tests for: no header ever sets it. */
  const OptionSection: string := "Experiment"

  /** The word that introduces a run file-name pattern. */
  const PatternKeyword: string := "FilenamePattern"

  /** The part of a pattern a run number replaces. */
  const Placeholder: string := "---"

  datatype DetectorSpec = DetectorSpec(name: string, detectorType: string, channels: seq<int>)

  /** What the loader gives a module: name, type, filters and detectors. */
  datatype ModuleSpec = ModuleSpec(name: string, moduleType: string, filters: seq<string>, detectors: seq<DetectorSpec>)

  /** A run as the loader describes it (include/Run.hpp, without the ROOT
      file and tree it opens). */
  datatype Run = Run(number: int, description: string, runType: string, fileName: string, treeName: string)

  /** The ways loading stops: the `runtime_error` for a file that cannot be
      opened and for an unknown module type,
      the exceptions of `std::stoi` on a number list, and the null module
      pointer a detector line naming an unknown module dereferences. */
  datatype ConfigError =
    | UnsupportedModuleType(moduleType: string)
    | BadNumberList(text: string)
    | UnknownModule(moduleName: string)
    | CannotOpen(fileName: string)

  /** `current_section`, `run_filename_pattern`, `name_`, `daq_modules_`
      and `runs_`. */
  datatype Reader = Reader(section: string, pattern: string, name: string, modules: seq<ModuleSpec>, runs: seq<Run>)

  const Start: Reader := Reader("", "", "", [], [])

  // ---------------------------------------------------------------------
  // Option lines

  /** What `getline` leaves after the first word, without its leading
      blanks when it has something else. */
  function ValueAfterWord(t: string): string {
    TrimLeading(AfterFirstWord(t))
  }

  /** The value of `Word value`: the text after the word and its separating
      blank, whenever that text opens with a non-blank. */
  lemma ValueAfterWordOf(w: string, v: string)
    requires IsWord(w) && v != [] && !IsBlank(v[0])
    ensures ValueAfterWord(w + " " + v) == v
  {
    var rest := " " + v;
    AfterFirstWordIsRest([], w, rest);
    assert [] + w + rest == w + " " + v;
    assert rest[0] == ' ' && rest[1..] == v;
    assert FirstNonBlank(v) == Some(0);
    assert FirstNonBlank(rest) == Some(1);
  }

  /** A `FilenamePattern` line sets the pattern to the text after the
      keyword. */
  lemma PatternLine(p: string)
    requires p != [] && !IsBlank(p[0])
    ensures ValueAfterWord(PatternKeyword + " " + p) == p
  {
    assert IsWord(PatternKeyword) by {
      forall i | 0 <= i < |PatternKeyword| ensures !IsSpace(PatternKeyword[i]) {
      }
    }
    ValueAfterWordOf(PatternKeyword, p);
  }

  /** An option line: `Name <value>` sets the experiment name. Nothing
      but the name ever changes, and only a line whose first word is
      `Name` changes it. */
  function OptionLine(st: Reader, t: string): (r: Reader)
    ensures r == st.(name := r.name)
    ensures r != st ==> Words(t) != [] && Words(t)[0] == "Name"
  {
    var ws := Words(t);
    if ws != [] && ws[0] == "Name" then st.(name := ValueAfterWord(t)) else st
  }

  /** `Name <value>` read in the option section sets the name to the value
      as written, and nothing else. */
  lemma NameOptionLine(st: Reader, v: string)
    requires v != [] && !IsBlank(v[0])
    ensures OptionLine(st, "Name " + v) == st.(name := v)
  {
    assert IsWord("Name") by {
      forall i | 0 <= i < |"Name"| ensures !IsSpace("Name"[i]) { }
    }
    assert "Name " + v == "Name" + " " + v;
    WordsSpaceJoin("Name", v);
    ValueAfterWordOf("Name", v);
  }

  // ---------------------------------------------------------------------
  // Module lines

  /** The words after a module's type, left to right: `default` appends the
      type's defaults again, any other word goes through `addFilter`. */
  function ApplyFilterWords(fs: seq<string>, moduleType: string, words: seq<string>): (r: seq<string>)
    ensures fs <= r
    decreases |words|
  {
    if words == [] then fs
    else
      var next := if words[0] == "default" then fs + DefaultFilters(moduleType) else WithFilter(fs, words[0]);
      assert fs <= next;
      ApplyFilterWords(next, moduleType, words[1..])
  }

  /** Without a `default` word the filters stay free of duplicates. */
  lemma {:induction false} FilterWordsDistinct(fs: seq<string>, moduleType: string, words: seq<string>)
    requires NoDuplicates(fs)
    requires forall i :: 0 <= i < |words| ==> words[i] != "default"
    ensures NoDuplicates(ApplyFilterWords(fs, moduleType, words))
    decreases |words|
  {
    if words != [] {
      WithFilterSpec(fs, words[0]);
      FilterWordsDistinct(WithFilter(fs, words[0]), moduleType, words[1..]);
    }
  }

  /** Every word other than `default` ends up among the filters. */
  lemma {:induction false} FilterWordsPresent(fs: seq<string>, moduleType: string, words: seq<string>)
    ensures forall i :: 0 <= i < |words| && words[i] != "default" ==>
      words[i] in ApplyFilterWords(fs, moduleType, words)
    decreases |words|
  {
    if words != [] {
      var next := if words[0] == "default" then fs + DefaultFilters(moduleType) else WithFilter(fs, words[0]);
      WithFilterSpec(fs, words[0]);
      FilterWordsPresent(next, moduleType, words[1..]);
      assert words[0] != "default" ==> words[0] in next;
      assert forall i :: 1 <= i < |words| ==> words[i] == words[1..][i - 1];
    }
  }

  /** A `default` word on a line of a supported type repeats the defaults
      the constructor already generated. */
  lemma DefaultWordDuplicates(moduleType: string, words: seq<string>)
    requires moduleType in ValidModuleTypes
    requires words != [] && words[0] == "default"
    ensures !NoDuplicates(ApplyFilterWords(DefaultFilters(moduleType), moduleType, words))
  {
    var d := DefaultFilters(moduleType);
    DefaultsTwiceRepeat([], moduleType);
    assert [] + d + d == d + d;
    var r := ApplyFilterWords(d, moduleType, words);
    assert d + d <= r;
    assert d[0] == r[0] == r[|d|];
  }

  /** The module a module line defines. */
  function NewModule(words: seq<string>): ModuleSpec
    requires |words| >= 2
  {
    ModuleSpec(words[0], words[1], ApplyFilterWords(DefaultFilters(words[1]), words[1], words[2..]), [])
  }

  /** A line of the `DAQModules` section, as its words. */
  function ModuleLine(st: Reader, words: seq<string>): (r: Result<Reader, ConfigError>)
    ensures r.Ok? ==> r.value.section == st.section && r.value.name == st.name
    ensures r.Ok? ==> r.value.runs == st.runs && st.modules <= r.value.modules && |r.value.modules| <= |st.modules| + 1
    ensures |words| < 2 ==> r == Ok(st)
    ensures |words| >= 2 && words[1] !in ValidModuleTypes ==> r == Err(UnsupportedModuleType(words[1]))
    ensures |words| >= 2 && words[1] in ValidModuleTypes ==>
      r.Ok? && r.value.modules == st.modules + [NewModule(words)] && r.value.runs == st.runs
  {
    if |words| < 2 then Ok(st)
    else if words[1] !in ValidModuleTypes then Err(UnsupportedModuleType(words[1]))
    else Ok(st.(modules := st.modules + [NewModule(words)]))
  }

  // ---------------------------------------------------------------------
  // Detector lines

  /** The first module of the name: the loader's search loop. */
  function FindModule(ms: seq<ModuleSpec>, name: string): (r: Option<nat>)
    ensures r.Some? ==> r.value < |ms| && ms[r.value].name == name
    ensures r.Some? ==> forall j :: 0 <= j < r.value ==> ms[j].name != name
    ensures r.None? <==> forall j :: 0 <= j < |ms| ==> ms[j].name != name
  {
    if ms == [] then None
    else if ms[0].name == name then Some(0)
    else
      match FindModule(ms[1..], name)
      case None => None
      case Some(j) => Some(j + 1)
  }

  /** A module with one more detector. */
  function Attach(m: ModuleSpec, d: DetectorSpec): ModuleSpec {
    m.(detectors := m.detectors + [d])
  }

  /** A line of the `Detectors` section, as its words: name, type, module
      and channel list. The channel list is parsed before the module is
      looked up, and a line is dropped while there are no modules yet. */
  function DetectorLine(st: Reader, words: seq<string>): (r: Result<Reader, ConfigError>)
    ensures r.Ok? ==> r.value.section == st.section && r.value.name == st.name
    ensures r.Ok? ==> r.value.runs == st.runs && |r.value.modules| == |st.modules|
    ensures |words| < 4 ==> r == Ok(st)
    ensures |words| >= 4 && ParseNumbers(words[3]).None? ==> r == Err(BadNumberList(words[3]))
    ensures |words| >= 4 && ParseNumbers(words[3]).Some? && st.modules == [] ==> r == Ok(st)
    ensures |words| >= 4 && ParseNumbers(words[3]).Some? && st.modules != [] ==>
      match FindModule(st.modules, words[2])
      case None => r == Err(UnknownModule(words[2]))
      case Some(i) =>
        r.Ok? && r.value.runs == st.runs && |r.value.modules| == |st.modules| &&
        (forall j :: 0 <= j < |st.modules| && j != i ==> r.value.modules[j] == st.modules[j]) &&
        r.value.modules[i] == Attach(st.modules[i], DetectorSpec(words[0], words[1], ParseNumbers(words[3]).value))
  {
    if |words| < 4 then Ok(st)
    else
      match ParseNumbers(words[3])
      case None => Err(BadNumberList(words[3]))
      case Some(channels) =>
        if st.modules == [] then Ok(st)
        else
          match FindModule(st.modules, words[2])
          case None => Err(UnknownModule(words[2]))
          case Some(i) =>
            var d := DetectorSpec(words[0], words[1], channels);
            Ok(st.(modules := st.modules[i := Attach(st.modules[i], d)]))
  }

  /** A detector line naming a module that is present attaches the
      detector to the first module of that name. */
  lemma DetectorLineFound(st: Reader, words: seq<string>, channels: seq<int>, i: nat)
    requires |words| >= 4 && ParseNumbers(words[3]) == Some(channels)
    requires FindModule(st.modules, words[2]) == Some(i)
    ensures DetectorLine(st, words) ==
      Ok(st.(modules := st.modules[i := Attach(st.modules[i], DetectorSpec(words[0], words[1], channels))]))
  {
  }

  // ---------------------------------------------------------------------
  // Run lines

  /** The file name of run `n`: the pattern with its first `---` replaced by
      `n` zero-padded to three digits, or the pattern itself without one. */
  function RunFileName(pattern: string, n: nat): (f: string)
    ensures FindSub(pattern, Placeholder).None? ==> f == pattern
    ensures FindSub(pattern, Placeholder).Some? ==>
      var i := FindSub(pattern, Placeholder).value;
      f == pattern[..i] + Pad3(n) + pattern[i + |Placeholder|..]
  {
    if pattern != [] && FindSub(pattern, Placeholder).Some? then
      var i := FindSub(pattern, Placeholder).value;
      var f := ReplaceFirst(pattern, Placeholder, Pad3(n));
      assert f == f[..i] + f[i..i + |Pad3(n)|] + f[i + |Pad3(n)|..];
      f
    else pattern
  }

  /** Different runs of one pattern with `---` get different files. */
  lemma {:induction false} RunFileNameInjective(pattern: string, a: nat, b: nat)
    requires FindSub(pattern, Placeholder).Some?
    requires RunFileName(pattern, a) == RunFileName(pattern, b)
    ensures a == b
  {
    var i := FindSub(pattern, Placeholder).value;
    var pre, post := pattern[..i], pattern[i + 3..];
    var fa, fb := RunFileName(pattern, a), RunFileName(pattern, b);
    assert |Pad3(a)| == |Pad3(b)|;
    assert Pad3(a) == fa[i..i + |Pad3(a)|];
    assert Pad3(b) == fb[i..i + |Pad3(b)|];
  }

  /** The number of a run is read back from its file name by `std::stoi`
      on the digits that replaced the placeholder. */
  lemma {:induction false} RunNumberInFileName(pattern: string, n: nat)
    requires FindSub(pattern, Placeholder).Some? && n <= IntMax
    ensures var i := FindSub(pattern, Placeholder).value;
      var f := RunFileName(pattern, n);
      Stoi(f[i..i + |Pad3(n)|]) == Some(n)
  {
    var i := FindSub(pattern, Placeholder).value;
    var f := RunFileName(pattern, n);
    assert f[i..i + |Pad3(n)|] == Pad3(n);
    StoiOfPad3(n);
  }

  /** The runs of one run line, one per number, in the order of the list. */
  function RunsOf(numbers: seq<int>, description: string, runType: string, treeName: string, pattern: string): (rs: seq<Run>)
    requires InIntRange(numbers)
    ensures |rs| == |numbers|
    ensures forall k :: 0 <= k < |rs| ==>
      rs[k] == Run(numbers[k], description, runType, RunFileName(pattern, numbers[k]), treeName)
  {
    if numbers == [] then []
    else
      var n := numbers[|numbers| - 1];
      RunsOf(numbers[..|numbers| - 1], description, runType, treeName, pattern) +
        [Run(n, description, runType, RunFileName(pattern, n), treeName)]
  }

  /** A line of the `Runs` section: a pattern line, or number list,
      description, type and tree name. */
  function RunLine(st: Reader, t: string): (r: Result<Reader, ConfigError>)
    ensures r.Ok? ==> r.value.section == st.section && r.value.name == st.name
    ensures r.Ok? ==> r.value.modules == st.modules && st.runs <= r.value.runs
    ensures FindSub(t, PatternKeyword) == Some(0) ==> r == Ok(st.(pattern := ValueAfterWord(t)))
    ensures FindSub(t, PatternKeyword) != Some(0) && |Words(t)| < 4 ==> r == Ok(st)
    ensures FindSub(t, PatternKeyword) != Some(0) && |Words(t)| >= 4 && ParseNumbers(Words(t)[0]).None? ==>
      r == Err(BadNumberList(Words(t)[0]))
    ensures FindSub(t, PatternKeyword) != Some(0) && |Words(t)| >= 4 && ParseNumbers(Words(t)[0]).Some? ==>
      var ws := Words(t);
      r.Ok? && r.value.modules == st.modules && r.value.pattern == st.pattern &&
      r.value.runs == st.runs + RunsOf(ParseNumbers(ws[0]).value, ws[1], ws[2], ws[3], st.pattern)
  {
    if FindSub(t, PatternKeyword) == Some(0) then Ok(st.(pattern := ValueAfterWord(t)))
    else
      var ws := Words(t);
      if |ws| < 4 then Ok(st)
      else
        match ParseNumbers(ws[0])
        case None => Err(BadNumberList(ws[0]))
        case Some(numbers) => Ok(st.(runs := st.runs + RunsOf(numbers, ws[1], ws[2], ws[3], st.pattern)))
  }

  // ---------------------------------------------------------------------
  // The line loop

  /** Whether the loop passes over a line without looking at it: nothing
      but spaces and tabs, or a `#` as its very first character. */
  predicate Skipped(line: string) {
    AllBlank(line) || line[0] == '#'
  }

  /** A trimmed line other than a header, read as its section says. It
      keeps the section; outside the option section it keeps the name; it
      adds at most one module and only appends runs. */
  function SectionLine(st: Reader, t: string): (r: Result<Reader, ConfigError>)
    ensures r.Ok? ==> r.value.section == st.section
    ensures r.Ok? && st.section != OptionSection ==> r.value.name == st.name
    ensures r.Ok? ==> |st.modules| <= |r.value.modules| <= |st.modules| + 1 && st.runs <= r.value.runs
  {
    if st.section == OptionSection then Ok(OptionLine(st, t))
    else if st.section == "DAQModules" then ModuleLine(st, Words(t))
    else if st.section == "Detectors" then DetectorLine(st, Words(t))
    else if st.section == "Runs" then RunLine(st, t)
    else Ok(st)
  }

  /** One line of the loop. Only a header line moves to another section,
      and no line removes a module or a run. */
  function Step(st: Reader, line: string): (r: Result<Reader, ConfigError>)
    ensures r.Ok? && r.value.section != st.section ==> !Skipped(line) && Trim(line) in SectionNames
    ensures r.Ok? ==> |st.modules| <= |r.value.modules| <= |st.modules| + 1 && st.runs <= r.value.runs
  {
    if Skipped(line) then Ok(st)
    else
      var t := Trim(line);
      if t in SectionNames then Ok(st.(section := t))
      else SectionLine(st, t)
  }

  /** The reader after all the lines, or the first failure. Each line
      declares at most one module. */
  function Load(lines: seq<string>): (r: Result<Reader, ConfigError>)
    ensures r.Ok? ==> |r.value.modules| <= |lines|
  {
    if lines == [] then Ok(Start)
    else
      match Load(lines[..|lines| - 1])
      case Err(e) => Err(e)
      case Ok(st) => Step(st, lines[|lines| - 1])
  }

  // ---------------------------------------------------------------------
  // Properties of the loop

  /** Blank lines and lines opening with `#` change nothing; a `#` after
      leading blanks does not make a comment. */
  lemma SkippedLinesChangeNothing(st: Reader, line: string)
    ensures Skipped(line) ==> Step(st, line) == Ok(st)
    ensures !Skipped(line) ==> Trim(line)[0] == '#' ==> line[0] == ' ' || line[0] == '\t'
    ensures !AllBlank(line) && (line[0] == ' ' || line[0] == '\t') ==>
      !Skipped(line) && (Trim(line) !in SectionNames ==> Step(st, line) == SectionLine(st, Trim(line)))
  {
    if !Skipped(line) {
      var i := FirstNonBlank(line).value;
      if i == 0 {
        assert Trim(line)[0] == line[0];
      }
    }
  }

  /** A header only switches the section. */
  lemma HeaderSwitchesSection(st: Reader, line: string)
    requires !Skipped(line) && Trim(line) in SectionNames
    ensures Step(st, line) == Ok(st.(section := Trim(line)))
  {
  }

  /** Lines outside any section, and the option lines of the
      `ExperimentOptions` section, are ignored. */
  lemma OtherLinesChangeNothing(st: Reader, line: string)
    requires !Skipped(line) && Trim(line) !in SectionNames
    requires st.section !in ["DAQModules", "Detectors", "Runs", OptionSection]
    ensures Step(st, line) == Ok(st)
  {
  }

  predicate KnownSection(section: string) {
    section == "" || section in SectionNames
  }

  /** No line leaves the known sections or sets the name. */
  lemma StepKeepsNameUnset(st: Reader, line: string)
    requires KnownSection(st.section) && st.name == ""
    ensures Step(st, line).Ok? ==> KnownSection(Step(st, line).value.section) && Step(st, line).value.name == ""
  {
    if !Skipped(line) {
      var t := Trim(line);
      if t !in SectionNames {
        assert st.section != OptionSection;
      }
    }
  }

  /** The section is always empty or one of the four headers, so the option
      branch never runs and the experiment name is never set. */
  lemma {:induction false} NameNeverSet(lines: seq<string>)
    ensures Load(lines).Ok? ==> KnownSection(Load(lines).value.section) && Load(lines).value.name == ""
  {
    if lines != [] {
      var init := lines[..|lines| - 1];
      NameNeverSet(init);
      if Load(init).Ok? {
        StepKeepsNameUnset(Load(init).value, lines[|lines| - 1]);
      }
    }
  }

  /** Once a line fails, loading fails with that error. */
  lemma {:induction false} FailureIsFinal(lines: seq<string>, k: nat)
    requires k <= |lines| && Load(lines[..k]).Err?
    ensures Load(lines) == Load(lines[..k])
    decreases |lines| - k
  {
    if k < |lines| {
      assert lines[..k + 1][..k] == lines[..k];
      FailureIsFinal(lines, k + 1);
    } else {
      assert lines[..k] == lines;
    }
  }
}

=== FILE: daq_module.dfy ===
/** src/DAQModule.cpp: a digitiser module, its table of channel names, the
    filters (tree branches) it provides and the detectors read through it. */
module DAQModules {
  import opened Wrappers
  import opened Seqs
  import opened Detectors

  /** `VALID_MODULE_TYPES` (include/DAQModule.hpp). */
  const ValidModuleTypes: seq<string> := ["mdpp16scp", "mdpp16qdc"]

  /** The channel count the constructor uses when none is given. */
  const DefaultChannelNum: nat := 16

  /** The filters `generateDefaultFilters` appends for a module type. */
  function DefaultFilters(moduleType: string): (fs: seq<string>)
    ensures moduleType == "mdpp16scp" ==>
      fs == ["amplitude", "channel_time", "module_timestamp", "trigger_time"]
    ensures moduleType == "mdpp16qdc" ==>
      fs == ["channel_time", "integration_long", "integration_short", "module_timestamp", "trigger_time"]
    ensures moduleType !in ValidModuleTypes <==> fs == []
  {
    if moduleType == "mdpp16scp" then
      ["amplitude", "channel_time", "module_timestamp", "trigger_time"]
    else if moduleType == "mdpp16qdc" then
      ["channel_time", "integration_long", "integration_short", "module_timestamp", "trigger_time"]
    else
      []
  }

  /** No type's default list names a filter twice. */
  lemma DefaultFiltersDistinct(moduleType: string)
    ensures NoDuplicates(DefaultFilters(moduleType))
  {
    var fs := DefaultFilters(moduleType);
    if moduleType == "mdpp16scp" {
      assert fs[0][0] == 'a' && fs[1][1] == 'h' && fs[2][0] == 'm' && fs[3][0] == 't';
    } else if moduleType == "mdpp16qdc" {
      assert fs[0][0] == 'c' && fs[3][0] == 'm' && fs[4][0] == 't';
      assert fs[1][12] == 'l' && fs[2][12] == 's';
    }
  }

  /** `generateDefaultFilters` appends with no duplicate check, so a second
      call (a `default` word on a module line) repeats every default. */
  lemma DefaultsTwiceRepeat(fs: seq<string>, moduleType: string)
    requires moduleType in ValidModuleTypes
    ensures !NoDuplicates(fs + DefaultFilters(moduleType) + DefaultFilters(moduleType))
  {
    var d := DefaultFilters(moduleType);
    var all := fs + d + d;
    assert all[|fs|] == d[0] == all[|fs| + |d|];
  }

  /** The filter list after `addFilter(f)`: `f` appended unless present. */
  function WithFilter(fs: seq<string>, f: string): (r: seq<string>)
    ensures f in r && fs <= r && |r| <= |fs| + 1
    ensures forall x :: x in r ==> x in fs || x == f
  {
    if f in fs then fs else fs + [f]
  }

  /** `addFilter` appends exactly when the name is absent, and never
      introduces a duplicate. */
  lemma {:induction false} WithFilterSpec(fs: seq<string>, f: string)
    ensures f in WithFilter(fs, f)
    ensures f !in fs <==> WithFilter(fs, f) == fs + [f]
    ensures f in fs <==> WithFilter(fs, f) == fs
    ensures NoDuplicates(fs) ==> NoDuplicates(WithFilter(fs, f))
  {
    if f !in fs {
      assert (fs + [f])[|fs|] == f;
      assert WithFilter(fs, f) != fs;
    } else {
      assert fs + [f] != fs;
    }
  }

  /** Adding the same filter twice is adding it once. */
  lemma WithFilterIdempotent(fs: seq<string>, f: string)
    ensures WithFilter(WithFilter(fs, f), f) == WithFilter(fs, f)
  {
    WithFilterSpec(fs, f);
  }

  /** `removeFilter` undoes an `addFilter` of a name that was absent. */
  lemma RemoveUndoesAdd(fs: seq<string>, f: string)
    requires f !in fs
    ensures RemoveFirst(WithFilter(fs, f), f) == fs
  {
    RemoveFirstUndoesAppend(fs, f);
  }

  /** `.at(channel)` fails with `std::out_of_range`; `find` on the names
      fails with the same exception type. */
  datatype ChannelError = ChannelOutOfRange(channel: int) | ChannelNameNotFound(channelName: string)

  class DAQModule {
    var name: string
    var moduleType: string
    /** `channelNames_`: sized once by the constructor, never resized. */
    const channelNames: array<string>
    var filters: seq<string>
    var detectors: seq<Detector>

    /** A module with `channelNum` unnamed channels and the type's default
        filters, generated by the constructor itself. */
    constructor (name: string, moduleType: string, channelNum: nat := DefaultChannelNum)
      ensures this.name == name && this.moduleType == moduleType
      ensures fresh(channelNames) && channelNames.Length == channelNum
      ensures forall c :: 0 <= c < channelNum ==> channelNames[c] == ""
      ensures filters == DefaultFilters(moduleType)
      ensures detectors == []
    {
      this.name := name;
      this.moduleType := moduleType;
      channelNames := new string[channelNum](_ => "");
      filters := [];
      detectors := [];
      new;
      GenerateDefaultFilters();
    }

    function GetName(): (r: string)
      reads this
      ensures r == name
    {
      name
    }

    function GetType(): (r: string)
      reads this
      ensures r == moduleType
    {
      moduleType
    }

    function GetFilters(): (r: seq<string>)
      reads this
      ensures r == filters
    {
      filters
    }

    /** `channelNames_.at(channel)`. */
    function GetChannelName(channel: int): (r: Result<string, ChannelError>)
      reads this, channelNames
      ensures r.Ok? <==> 0 <= channel < channelNames.Length
      ensures r.Ok? ==> r.value == channelNames[channel]
      ensures r.Err? ==> r.error == ChannelOutOfRange(channel)
    {
      if 0 <= channel < channelNames.Length then Ok(channelNames[channel]) else Err(ChannelOutOfRange(channel))
    }

    /** `getChannel`: the first channel carrying the name. */
    function GetChannel(channelName: string): (r: Result<nat, ChannelError>)
      reads this, channelNames
      ensures r.Ok? ==> r.value < channelNames.Length && channelNames[r.value] == channelName
      ensures r.Ok? ==> forall c :: 0 <= c < r.value ==> channelNames[c] != channelName
      ensures r.Err? <==> forall c :: 0 <= c < channelNames.Length ==> channelNames[c] != channelName
    {
      match IndexOf(channelNames[..], channelName)
      case Some(c) => Ok(c)
      case None => Err(ChannelNameNotFound(channelName))
    }

    method SetName(name: string)
      modifies this
      ensures GetName() == name
      ensures moduleType == old(moduleType) && filters == old(filters) && detectors == old(detectors)
    {
      this.name := name;
    }

    method SetType(moduleType: string)
      modifies this
      ensures GetType() == moduleType
      ensures name == old(name) && filters == old(filters) && detectors == old(detectors)
    {
      this.moduleType := moduleType;
    }

    /** `channelNames_.at(channel) = channelName`: only that slot changes,
        and reading it back gives the new name. */
    method SetChannelName(channel: int, channelName: string) returns (r: Result<(), ChannelError>)
      modifies channelNames
      ensures r.Ok? <==> 0 <= channel < channelNames.Length
      ensures r.Err? ==> r.error == ChannelOutOfRange(channel) && channelNames[..] == old(channelNames[..])
      ensures r.Ok? ==> channelNames[..] == old(channelNames[..])[channel := channelName]
      ensures r.Ok? ==> GetChannelName(channel) == Ok(channelName)
    {
      if 0 <= channel < channelNames.Length {
        channelNames[channel] := channelName;
        r := Ok(());
      } else {
        r := Err(ChannelOutOfRange(channel));
      }
    }

    method GenerateDefaultFilters()
      modifies this
      ensures filters == old(filters) + DefaultFilters(moduleType)
      ensures name == old(name) && moduleType == old(moduleType) && detectors == old(detectors)
    {
      filters := filters + DefaultFilters(moduleType);
    }

    method AddFilter(filterName: string)
      modifies this
      ensures filters == WithFilter(old(filters), filterName)
      ensures name == old(name) && moduleType == old(moduleType) && detectors == old(detectors)
    {
      if IndexOf(filters, filterName).None? {
        filters := filters + [filterName];
      }
    }

    method RemoveFilter(filterName: string)
      modifies this
      ensures filters == RemoveFirst(old(filters), filterName)
      ensures name == old(name) && moduleType == old(moduleType) && detectors == old(detectors)
    {
      var it := IndexOf(filters, filterName);
      if it.Some? {
        filters := filters[..it.value] + filters[it.value + 1..];
      }
    }

    /** The body of `addDetector` is not part of the sources; the loader's
        use of it is modelled as an append. */
    method AddDetector(detector: Detector)
      modifies this
      ensures detectors == old(detectors) + [detector]
      ensures name == old(name) && moduleType == old(moduleType) && filters == old(filters)
    {
      detectors := detectors + [detector];
    }
  }
}

=== FILE: detector.dfy ===
/** src/Detector.cpp: a detector, its type and the DAQ channels it reads. */
module Detectors {

  class Detector {
    var name: string
    var detectorType: string
    var channels: seq<int>

    /** Stores the three values unchanged. */
    constructor (name: string, detectorType: string, channels: seq<int>)
      ensures GetName() == name && GetType() == detectorType && GetChannels() == channels
    {
      this.name := name;
      this.detectorType := detectorType;
      this.channels := channels;
    }

    function GetName(): (r: string)
      reads this
      ensures r == name
    {
      name
    }

    function GetType(): (r: string)
      reads this
      ensures r == detectorType
    {
      detectorType
    }

    function GetChannels(): (r: seq<int>)
      reads this
      ensures r == channels
    {
      channels
    }

    method SetName(name: string)
      modifies this
      ensures GetName() == name
      ensures GetType() == old(GetType()) && GetChannels() == old(GetChannels())
    {
      this.name := name;
    }

    method SetType(detectorType: string)
      modifies this
      ensures GetType() == detectorType
      ensures GetName() == old(GetName()) && GetChannels() == old(GetChannels())
    {
      this.detectorType := detectorType;
    }

    /** The list is copied in: later changes to the caller's vector do not
        reach the detector, which a value sequence gives for free. */
    method SetChannels(channels: seq<int>)
      modifies this
      ensures GetChannels() == channels
      ensures GetName() == old(GetName()) && GetType() == old(GetType())
    {
      this.channels := channels;
    }
  }
}

=== FILE: event.dfy ===
/** src/Event.cpp: the readers an event binds for the filters of its
    modules, and the lookup `getData` performs on them. */
module Events {
  import opened Wrappers
  import opened DAQModules

  /** The reader bound to a filter: a `TTreeReaderArray<Double_t>` or a
      `TTreeReaderValue<Double_t>`, each on the branch named after the
      filter. */
  datatype Binding = ArrayBranch(branch: string) | ValueBranch(branch: string)

  /** What `getData` reads from the current entry: element `channel` of an
      array branch, or the value of a scalar branch. */
  datatype Read = ElementOf(branch: string, channel: int) | ValueOf(branch: string)

  /** The two `runtime_error`s of `getData`. */
  datatype EventError = ModuleNotFound | FilterNotFound

  /** The reader the constructor binds for a filter: an array reader where
      one can be made, otherwise (the `catch`) a value reader. */
  function BindingOf(filter: string, arrayBranches: set<string>): (r: Binding)
    ensures r.branch == filter
    ensures r.ArrayBranch? <==> filter in arrayBranches
  {
    if filter in arrayBranches then ArrayBranch(filter) else ValueBranch(filter)
  }

  /** The readers of one module: one per distinct filter name. */
  function ModuleBindings(filters: seq<string>, arrayBranches: set<string>): (r: map<string, Binding>)
    ensures forall f :: f in r <==> f in filters
    ensures forall f :: f in r ==> r[f] == BindingOf(f, arrayBranches)
  {
    map f | f in filters :: BindingOf(f, arrayBranches)
  }

  /** `data_[pmodule]`: the module's readers, or the empty map that
      `operator[]` inserts. */
  function Inner(data: map<DAQModule, map<string, Binding>>, m: DAQModule): map<string, Binding> {
    if m in data then data[m] else map[]
  }

  /** The readers after the constructor: a module enters the map only
      through one of its filters, so a module without filters has no
      entry. */
  ghost function Bindings(ms: seq<DAQModule>, arrayBranches: set<string>): (r: map<DAQModule, map<string, Binding>>)
    reads ms
    ensures forall m :: m in ms && m.filters != [] ==> m in r
    ensures forall m :: m in r ==> m in ms && m.filters != [] && forall f :: f in r[m] <==> f in m.filters
  {
    map m | m in ms && m.filters != [] :: ModuleBindings(m.filters, arrayBranches)
  }

  /** One more module bound after the earlier ones: its readers are those
      of its filters whether or not it was bound before. */
  lemma BindingsStep(ms: seq<DAQModule>, i: nat, arrayBranches: set<string>)
    requires i < |ms|
    ensures var d, m := Bindings(ms[..i], arrayBranches), ms[i];
      Bindings(ms[..i + 1], arrayBranches) ==
        if m.filters == [] then d else d[m := Inner(d, m) + ModuleBindings(m.filters, arrayBranches)]
  {
    var d, m := Bindings(ms[..i], arrayBranches), ms[i];
    assert ms[..i + 1] == ms[..i] + [m];
    var mb := ModuleBindings(m.filters, arrayBranches);
    if m.filters != [] {
      assert Inner(d, m) + mb == mb;
    }
  }

  /** Binding one more filter of a module adds that filter's reader. */
  lemma BindingsAppend(a: map<string, Binding>, fs: seq<string>, f: string, arrayBranches: set<string>)
    ensures (a + ModuleBindings(fs, arrayBranches))[f := BindingOf(f, arrayBranches)] ==
      a + ModuleBindings(fs + [f], arrayBranches)
    ensures fs == [] ==> a[f := BindingOf(f, arrayBranches)] == a + ModuleBindings([f], arrayBranches)
  {
    if fs == [] {
      assert a + ModuleBindings(fs, arrayBranches) == a;
      assert fs + [f] == [f];
    }
  }

  class Event {
    const modules: seq<DAQModule>
    var data: map<DAQModule, map<string, Binding>>

    /** For every filter of every module, an array reader is tried first
        and a value reader bound when that throws. `arrayBranches` names the
        branches an array reader can be made for: which constructor throws
        is a property of the ROOT tree, outside this model. */
    constructor (modules: seq<DAQModule>, arrayBranches: set<string>)
      ensures this.modules == modules
      ensures data == Bindings(modules, arrayBranches)
    {
      this.modules := modules;
      data := map[];
      new;
      var i := 0;
      assert modules[..0] == [];
      while i < |modules|
        invariant i <= |modules|
        invariant data == Bindings(modules[..i], arrayBranches)
      {
        BindingsStep(modules, i, arrayBranches);
        BindModule(modules[i], arrayBranches);
        i := i + 1;
      }
      assert modules[..i] == modules;
    }

    /** The inner loop of the constructor, over the filters of one module. */
    method BindModule(m: DAQModule, arrayBranches: set<string>)
      modifies this
      ensures data == if m.filters == [] then old(data)
        else old(data)[m := Inner(old(data), m) + ModuleBindings(m.filters, arrayBranches)]
    {
      var filters := m.filters;
      ghost var start := Inner(data, m);
      var j := 0;
      while j < |filters|
        invariant j <= |filters|
        invariant j == 0 ==> data == old(data)
        invariant j > 0 ==> data == old(data)[m := start + ModuleBindings(filters[..j], arrayBranches)]
      {
        var filter := filters[j];
        ghost var inner := if j == 0 then start else start + ModuleBindings(filters[..j], arrayBranches);
        assert Inner(data, m) == inner;
        BindFilter(m, filter, arrayBranches);
        assert filters[..j + 1] == filters[..j] + [filter];
        BindingsAppend(start, filters[..j], filter, arrayBranches);
        if j == 0 {
          assert filters[..j] == [] && filters[..j + 1] == [filter];
        }
        assert inner[filter := BindingOf(filter, arrayBranches)] == start + ModuleBindings(filters[..j + 1], arrayBranches);
        j := j + 1;
      }
      assert filters[..j] == filters;
    }

    /** The body of the inner loop: `addArray`, and `addValue` when it
        throws. */
    method BindFilter(m: DAQModule, filter: string, arrayBranches: set<string>)
      modifies this
      ensures data == old(data)[m := Inner(old(data), m)[filter := BindingOf(filter, arrayBranches)]]
    {
      var thrown := AddArray(m, filter, arrayBranches);
      if thrown {
        AddValue(m, filter);
      }
    }

    /** `addArray`: `data_[pmodule]` is evaluated before the reader is
        made, so a throwing array reader still leaves the module's entry. */
    method AddArray(m: DAQModule, filter: string, arrayBranches: set<string>) returns (thrown: bool)
      modifies this
      ensures thrown <==> filter !in arrayBranches
      ensures !thrown ==> data == old(data)[m := Inner(old(data), m)[filter := ArrayBranch(filter)]]
      ensures thrown ==> data == old(data)[m := Inner(old(data), m)]
    {
      var inner := Inner(data, m);
      data := data[m := inner];
      if filter !in arrayBranches {
        return true;
      }
      data := data[m := inner[filter := ArrayBranch(filter)]];
      return false;
    }

    /** `addValue`: `insert_or_assign` of a value reader. */
    method AddValue(m: DAQModule, filter: string)
      modifies this
      ensures data == old(data)[m := Inner(old(data), m)[filter := ValueBranch(filter)]]
    {
      data := data[m := Inner(data, m)[filter := ValueBranch(filter)]];
    }

    /** `getData`: the module, then the filter, must have a reader. */
    function GetData(m: DAQModule, filter: string, channel: int := 0): (r: Result<Read, EventError>)
      reads this
      ensures r.Ok? <==> m in data && filter in data[m]
      ensures m !in data ==> r == Err(ModuleNotFound)
      ensures m in data && filter !in data[m] ==> r == Err(FilterNotFound)
      ensures r.Ok? && data[m][filter].ArrayBranch? ==> r.value == ElementOf(data[m][filter].branch, channel)
      ensures r.Ok? && data[m][filter].ValueBranch? ==> r.value == ValueOf(data[m][filter].branch)
    {
      if m !in data then Err(ModuleNotFound)
      else if filter !in data[m] then Err(FilterNotFound)
      else
        match data[m][filter]
        case ArrayBranch(b) => Ok(ElementOf(b, channel))
        case ValueBranch(b) => Ok(ValueOf(b))
    }
  }

  /** After the constructor, every filter of every module reads the branch
      of its own name, element-wise exactly when it is an array branch. */
  lemma FiltersReadTheirBranch(e: Event, arrayBranches: set<string>, m: DAQModule, filter: string, channel: int)
    requires e.data == Bindings(e.modules, arrayBranches)
    requires m in e.modules && filter in m.filters
    ensures e.GetData(m, filter, channel) ==
      Ok(if filter in arrayBranches then ElementOf(filter, channel) else ValueOf(filter))
  {
    assert m.filters != [];
  }

  /** A module without filters was never entered, so `getData` on it
      reports the module missing, whatever the filter. */
  lemma FilterlessModuleNotFound(e: Event, arrayBranches: set<string>, m: DAQModule, filter: string, channel: int)
    requires e.data == Bindings(e.modules, arrayBranches)
    requires m.filters == []
    ensures e.GetData(m, filter, channel) == Err(ModuleNotFound)
  {
  }
}

=== FILE: experiment.dfy ===
/** src/Experiment.cpp: the number-list helper, the configuration loader
    and the lookups and edits on an experiment's modules and runs. */
module ExperimentConfig {
  import opened Wrappers
  import opened Seqs
  import opened StdText
  import opened NumberString
  import opened Detectors
  import opened DAQModules
  import opened ConfigSpec

  /** `parseNumberString`: a `getline(iss, token, ',')` loop; a token with
      a '-' pushes every number of its range, any other token its single
      number. `None` where `std::stoi` throws. */
  method ParseNumberString(numberString: string) returns (r: Option<seq<int>>)
    ensures r == ParseNumbers(numberString)
  {
    var numbers: seq<int> := [];
    var rest := numberString;
    ConcatNothing(ParseNumbers(rest));
    while rest != []
      invariant ParseNumbers(numberString) == Concat(Some(numbers), ParseNumbers(rest))
      decreases |rest|
    {
      var token, after;
      match IndexOf(rest, ',') {
        case None =>
          token, after := rest, [];
        case Some(i) =>
          token, after := rest[..i], rest[i + 1..];
      }
      ParseNumbersStep(rest, token, after);
      var dash := IndexOf(token, '-');
      if dash.Some? {
        var start := Stoi(token[..dash.value]);
        var end := Stoi(token[dash.value + 1..]);
        if start.None? || end.None? {
          assert ExpandToken(token) == None;
          return None;
        }
        ghost var before := numbers;
        numbers := PushRange(numbers, start.value, end.value);
        assert ExpandToken(token) == Some(Range(start.value, end.value));
        ConcatShift(before, Range(start.value, end.value), ParseNumbers(after));
      } else {
        var n := Stoi(token);
        if n.None? {
          assert ExpandToken(token) == None;
          return None;
        }
        assert ExpandToken(token) == Some([n.value]);
        ConcatShift(numbers, [n.value], ParseNumbers(after));
        numbers := numbers + [n.value];
      }
      rest := after;
    }
    assert Split([], ',') == [];
    assert numbers + [] == numbers;
    return Some(numbers);
  }

  /** The inner loop of `parseNumberString`: `for (i = start; i <= end; ++i)
      numbers.push_back(i)`. */
  method PushRange(numbers: seq<int>, start: int, end: int) returns (r: seq<int>)
    ensures r == numbers + Range(start, end)
  {
    r := numbers;
    assert r + Range(start, start - 1) == r;
    var i := start;
    while i <= end
      invariant start <= i <= if start <= end then end + 1 else start
      invariant r == numbers + Range(start, i - 1)
      decreases end - i
    {
      r := r + [i];
      i := i + 1;
    }
  }

  // ---------------------------------------------------------------------
  // What the loader's objects describe

  ghost function DetectorView(d: Detector): DetectorSpec
    reads d
  {
    DetectorSpec(d.name, d.detectorType, d.channels)
  }

  ghost function DetectorViews(ds: seq<Detector>): (r: seq<DetectorSpec>)
    reads ds
  {
    seq(|ds|, k requires 0 <= k < |ds| reads ds => DetectorView(ds[k]))
  }

  ghost function ModuleView(m: DAQModule): ModuleSpec
    reads m, m.detectors
  {
    ModuleSpec(m.name, m.moduleType, m.filters, DetectorViews(m.detectors))
  }

  /** The detectors of the modules: with the modules themselves, what
      their views read. */
  ghost function Footprint(ms: seq<DAQModule>): set<Detector>
    reads ms
  {
    set k, d | 0 <= k < |ms| && d in ms[k].detectors :: d
  }

  ghost function ModuleViews(ms: seq<DAQModule>): (r: seq<ModuleSpec>)
    reads ms, Footprint(ms)
  {
    seq(|ms|, k requires 0 <= k < |ms| reads ms, Footprint(ms) =>
      assert forall d :: d in ms[k].detectors ==> d in Footprint(ms);
      ModuleView(ms[k]))
  }

  /** The views of modules whose fields, and whose detectors' fields, did
      not change are the views they had. */
  twostate lemma ViewsKept(ms: seq<DAQModule>)
    requires forall k :: 0 <= k < |ms| ==> unchanged(ms[k]) && unchanged(ms[k].detectors)
    ensures ModuleViews(ms) == old(ModuleViews(ms))
  {
    forall k | 0 <= k < |ms|
      ensures ModuleViews(ms)[k] == old(ModuleViews(ms))[k]
    {
      assert DetectorViews(ms[k].detectors) == old(DetectorViews(ms[k].detectors));
    }
  }

  /** No module appears twice in the list. */
  ghost predicate DistinctModules(ms: seq<DAQModule>) {
    forall i, j :: 0 <= i < j < |ms| ==> ms[i] != ms[j]
  }

  /** A channel table as the constructor leaves it by default: the
      default number of channels, none of them named yet. */
  ghost predicate Unnamed(channelNames: array<string>)
    reads channelNames
  {
    channelNames.Length == DefaultChannelNum &&
    forall c :: 0 <= c < DefaultChannelNum ==> channelNames[c] == ""
  }

  /** Every module as the loader builds it. */
  ghost predicate DefaultChannels(ms: seq<DAQModule>)
    reads set m | m in ms :: m.channelNames
  {
    forall k :: 0 <= k < |ms| ==> Unnamed(ms[k].channelNames)
  }

  lemma DistinctAppend(ms: seq<DAQModule>, m: DAQModule)
    requires m !in ms
    ensures DistinctModules(ms) ==> DistinctModules(ms + [m])
  {
  }

  function ModuleNames(ms: seq<DAQModule>): (names: seq<string>)
    reads ms
    ensures |names| == |ms|
    ensures forall k :: 0 <= k < |ms| ==> names[k] == ms[k].name
  {
    if ms == [] then [] else ModuleNames(ms[..|ms| - 1]) + [ms[|ms| - 1].name]
  }

  function RunNumbers(rs: seq<Run>): (numbers: seq<int>)
    ensures |numbers| == |rs|
    ensures forall k :: 0 <= k < |rs| ==> numbers[k] == rs[k].number
  {
    if rs == [] then [] else RunNumbers(rs[..|rs| - 1]) + [rs[|rs| - 1].number]
  }

  /** Removing a run number that only the last added run carries gives
      back the runs from before it was added. */
  /** After the removal of a name no module of that name is left. */
  lemma NoModuleOfName(ms: seq<DAQModule>, moduleName: string)
    ensures forall x :: x in Without(ms, ModuleNames(ms), moduleName) ==> x.name != moduleName
  {
    var names := ModuleNames(ms);
    var r := Without(ms, names, moduleName);
    WithoutSpec(ms, names, moduleName);
    forall x | x in r
      ensures x.name != moduleName
    {
      var i :| 0 <= i < |ms| && ms[i] == x && names[i] != moduleName;
    }
  }

  /** After the removal of a number no run of that number is left. */
  lemma NoRunOfNumber(rs: seq<Run>, runNumber: int)
    ensures forall x :: x in Without(rs, RunNumbers(rs), runNumber) ==> x.number != runNumber
  {
    var numbers := RunNumbers(rs);
    var r := Without(rs, numbers, runNumber);
    WithoutSpec(rs, numbers, runNumber);
    forall x | x in r
      ensures x.number != runNumber
    {
      var i :| 0 <= i < |rs| && rs[i] == x && numbers[i] != runNumber;
    }
  }

  lemma RemoveRunUndoesAddRun(rs: seq<Run>, run: Run)
    requires forall k :: 0 <= k < |rs| ==> rs[k].number != run.number
    ensures Without(rs + [run], RunNumbers(rs + [run]), run.number) == rs
  {
    assert (rs + [run])[..|rs|] == rs;
    assert RunNumbers(rs + [run]) == RunNumbers(rs) + [run.number];
    WithoutUndoesAppend(rs, RunNumbers(rs), run, run.number);
  }

  /** The module of a module line: the constructor generates the type's
      defaults, then the words after the type are applied to it. */
  method BuildModule(words: seq<string>) returns (m: DAQModule)
    requires |words| >= 2
    ensures fresh(m) && fresh(m.channelNames) && m.channelNames.Length == DefaultChannelNum
    ensures forall c :: 0 <= c < m.channelNames.Length ==> m.channelNames[c] == ""
    ensures ModuleView(m) == NewModule(words)
  {
    m := new DAQModule(words[0], words[1]);
    AddFilterWords(m, words[2..]);
    ViewOfNewModule(m, words);
  }

  /** Each word goes through `generateDefaultFilters` (the word `default`)
      or `addFilter`. */
  method AddFilterWords(m: DAQModule, words: seq<string>)
    modifies m
    ensures m.filters == ApplyFilterWords(old(m.filters), m.moduleType, words)
    ensures m.name == old(m.name) && m.moduleType == old(m.moduleType) && m.detectors == old(m.detectors)
  {
    ghost var target := ApplyFilterWords(m.filters, m.moduleType, words);
    var k := 0;
    while k < |words|
      invariant k <= |words|
      invariant m.name == old(m.name) && m.moduleType == old(m.moduleType) && m.detectors == old(m.detectors)
      invariant ApplyFilterWords(m.filters, m.moduleType, words[k..]) == target
    {
      ghost var next := FilterWordStep(m.filters, m.moduleType, words, k);
      if words[k] == "default" {
        m.GenerateDefaultFilters();
      } else {
        m.AddFilter(words[k]);
      }
      k := k + 1;
    }
    assert words[k..] == [];
  }

  /** One word of a module line applied to the filters. */
  lemma FilterWordStep(fs: seq<string>, moduleType: string, words: seq<string>, k: nat) returns (next: seq<string>)
    requires k < |words|
    ensures next == if words[k] == "default" then fs + DefaultFilters(moduleType) else WithFilter(fs, words[k])
    ensures ApplyFilterWords(fs, moduleType, words[k..]) == ApplyFilterWords(next, moduleType, words[k + 1..])
  {
    next := if words[k] == "default" then fs + DefaultFilters(moduleType) else WithFilter(fs, words[k]);
    assert words[k..][1..] == words[k + 1..];
  }

  /** A module without detectors whose fields are those of the line. */
  lemma ViewOfNewModule(m: DAQModule, words: seq<string>)
    requires |words| >= 2
    requires m.name == words[0] && m.moduleType == words[1] && m.detectors == []
    requires m.filters == NewModule(words).filters
    ensures ModuleView(m) == NewModule(words)
  {
    assert DetectorViews(m.detectors) == [];
  }

  class Experiment {
    var fileName: string
    var name: string
    var modules: seq<DAQModule>
    var runs: seq<Run>

    /** An experiment before its configuration is read. */
    constructor Empty(fileName: string)
      ensures this.fileName == fileName && name == "" && modules == [] && runs == []
    {
      this.fileName := fileName;
      name := "";
      modules := [];
      runs := [];
    }

    /** The configuration file read line by line: `None` for a file that
        cannot be opened. Loading stops at the first failing line. The
        section and the run-file pattern are locals of the loop, not state
        of the experiment. */
    static method FromConfig(fileName: string, file: Option<seq<string>>) returns (r: Result<Experiment, ConfigError>)
      ensures file.None? ==> r == Err(CannotOpen(fileName))
      ensures file.Some? && r.Err? ==> Load(file.value) == Err(r.error)
      ensures file.Some? && r.Ok? ==>
        var e := r.value;
        fresh(e) && e.fileName == fileName && DistinctModules(e.modules) &&
        Load(file.value).Ok? && Load(file.value).value.name == e.name &&
        Load(file.value).value.modules == ModuleViews(e.modules) && Load(file.value).value.runs == e.runs
      ensures file.Some? && r.Ok? ==> r.value.name == "" && DefaultChannels(r.value.modules)
    {
      if file.None? {
        return Err(CannotOpen(fileName));
      }
      var e := new Experiment.Empty(fileName);
      var read := e.ReadLines(file.value);
      if read.Err? {
        return Err(read.error);
      }
      NameNeverSet(file.value);
      return Ok(e);
    }

    /** The loop of the constructor, from an experiment with nothing read. */
    method ReadLines(lines: seq<string>) returns (r: Result<(), ConfigError>)
      requires name == "" && modules == [] && runs == []
      modifies this
      ensures r.Err? ==> Load(lines) == Err(r.error)
      ensures r.Ok? ==> (Load(lines).Ok? && Load(lines).value.name == name &&
        Load(lines).value.modules == ModuleViews(modules) && Load(lines).value.runs == runs)
      ensures fileName == old(fileName) && DistinctModules(modules) && DefaultChannels(modules)
      ensures forall i :: 0 <= i < |modules| ==> fresh(modules[i])
    {
      var section, pattern := "", "";
      var k := 0;
      assert lines[..k] == [] && ModuleViews(modules) == [];
      while k < |lines|
        invariant k <= |lines|
        invariant fileName == old(fileName) && DistinctModules(modules) && DefaultChannels(modules)
        invariant forall i :: 0 <= i < |modules| ==> fresh(modules[i])
        invariant Load(lines[..k]) == Ok(Reader(section, pattern, name, ModuleViews(modules), runs))
      {
        assert lines[..k + 1][..k] == lines[..k];
        var next := ReadLine(Reader(section, pattern, name, ModuleViews(modules), runs), section, pattern, lines[k]);
        if next.Err? {
          FailureIsFinal(lines, k + 1);
          return Err(next.error);
        }
        section, pattern := next.value.0, next.value.1;
        k := k + 1;
      }
      assert lines[..k] == lines;
      return Ok(());
    }

    /** One line: blank lines and lines opening with `#` are passed over,
        a header switches the section, anything else is read by the
        section. Gives the section and the pattern after the line. */
    method ReadLine(ghost st: Reader, section: string, pattern: string, line: string)
      returns (r: Result<(string, string), ConfigError>)
      requires st == Reader(section, pattern, name, ModuleViews(modules), runs) && DistinctModules(modules)
      modifies this, modules
      ensures r.Err? ==> Step(st, line) == Err(r.error)
      ensures r.Ok? ==> Step(st, line) == Ok(Reader(r.value.0, r.value.1, name, ModuleViews(modules), runs))
      ensures fileName == old(fileName) && old(modules) <= modules
      ensures forall i :: |old(modules)| <= i < |modules| ==> fresh(modules[i])
      ensures DistinctModules(modules)
      ensures DefaultChannels(old(modules)) ==> DefaultChannels(modules)
    {
      if FirstNonBlank(line).None? {
        return Ok((section, pattern));
      }
      if line == [] || line[0] == '#' {
        return Ok((section, pattern));
      }
      var t := Trim(line);
      if t in SectionNames {
        return Ok((t, pattern));
      }
      r := ReadSectionLine(st, section, pattern, t);
    }

    /** A trimmed line that is not a header, dispatched on the section. */
    method ReadSectionLine(ghost st: Reader, section: string, pattern: string, t: string)
      returns (r: Result<(string, string), ConfigError>)
      requires st == Reader(section, pattern, name, ModuleViews(modules), runs) && DistinctModules(modules)
      modifies this, modules
      ensures r.Err? ==> SectionLine(st, t) == Err(r.error)
      ensures r.Ok? ==> SectionLine(st, t) == Ok(Reader(r.value.0, r.value.1, name, ModuleViews(modules), runs))
      ensures fileName == old(fileName) && old(modules) <= modules
      ensures forall i :: |old(modules)| <= i < |modules| ==> fresh(modules[i])
      ensures DistinctModules(modules)
      ensures DefaultChannels(old(modules)) ==> DefaultChannels(modules)
    {
      if section == OptionSection {
        ReadOptionLine(st, t);
        ViewsKept(modules);
        return Ok((section, pattern));
      } else if section == "DAQModules" {
        var done := ReadModuleLine(st, Words(t));
        if done.Err? {
          return Err(done.error);
        }
        return Ok((section, pattern));
      } else if section == "Detectors" {
        var done := ReadDetectorLine(st, Words(t));
        if done.Err? {
          return Err(done.error);
        }
        return Ok((section, pattern));
      } else if section == "Runs" {
        var after := ReadRunLine(st, t, pattern);
        ViewsKept(modules);
        if after.Err? {
          return Err(after.error);
        }
        return Ok((section, after.value));
      }
      return Ok((section, pattern));
    }

    /** `getDAQModule`: the first module of the name, if any. */
    function GetDAQModule(moduleName: string): (r: Option<DAQModule>)
      reads this, modules
      ensures r.None? <==> forall k :: 0 <= k < |modules| ==> modules[k].name != moduleName
      ensures r.Some? ==> exists k :: (0 <= k < |modules| && modules[k] == r.value && modules[k].name == moduleName &&
        forall j :: 0 <= j < k ==> modules[j].name != moduleName)
    {
      match IndexOf(ModuleNames(modules), moduleName)
      case None => None
      case Some(k) =>
        assert forall j :: 0 <= j < k ==> ModuleNames(modules)[..k][j] != moduleName;
        Some(modules[k])
    }

    /** `getRun`: the first run of the number, if any. */
    function GetRun(runNumber: int): (r: Option<Run>)
      reads this
      ensures r.None? <==> forall k :: 0 <= k < |runs| ==> runs[k].number != runNumber
      ensures r.Some? ==> exists k :: (0 <= k < |runs| && runs[k] == r.value && r.value.number == runNumber &&
        forall j :: 0 <= j < k ==> runs[j].number != runNumber)
    {
      match IndexOf(RunNumbers(runs), runNumber)
      case None => None
      case Some(k) =>
        assert forall j :: 0 <= j < k ==> RunNumbers(runs)[..k][j] != runNumber;
        Some(runs[k])
    }

    /** `addDAQModule`: appended with no check, so a module of a name
        already present stays hidden behind the earlier one. */
    method AddDAQModule(m: DAQModule)
      modifies this
      ensures modules == old(modules) + [m]
      ensures runs == old(runs) && name == old(name) && fileName == old(fileName)
      ensures old(GetDAQModule(m.name)).None? ==> GetDAQModule(m.name) == Some(m)
      ensures old(GetDAQModule(m.name)).Some? ==> GetDAQModule(m.name) == old(GetDAQModule(m.name))
    {
      modules := modules + [m];
      assert forall k :: 0 <= k < |old(modules)| ==> modules[k] == old(modules)[k];
    }

    /** `removeDAQModule`: the erase/`remove_if` idiom drops every module of
        the name and keeps the others in order. */
    method RemoveDAQModule(moduleName: string)
      modifies this
      ensures modules == Without(old(modules), ModuleNames(old(modules)), moduleName)
      ensures GetDAQModule(moduleName).None?
      ensures forall k :: 0 <= k < |old(modules)| && old(modules)[k].name != moduleName ==> old(modules)[k] in modules
      ensures runs == old(runs) && name == old(name) && fileName == old(fileName)
    {
      var kept := Without(modules, ModuleNames(modules), moduleName);
      assert forall k :: 0 <= k < |modules| && modules[k].name != moduleName ==> modules[k] in kept by {
        WithoutSpec(modules, ModuleNames(modules), moduleName);
        forall k | 0 <= k < |modules| && modules[k].name != moduleName
          ensures modules[k] in kept
        {
          assert ModuleNames(modules)[k] != moduleName;
        }
      }
      assert forall k :: 0 <= k < |kept| ==> kept[k].name != moduleName by {
        NoModuleOfName(modules, moduleName);
      }
      modules := kept;
    }

    /** `addRun`: appended with no check. */
    method AddRun(run: Run)
      modifies this
      ensures runs == old(runs) + [run]
      ensures modules == old(modules) && name == old(name) && fileName == old(fileName)
      ensures old(GetRun(run.number)).None? ==> GetRun(run.number) == Some(run)
      ensures old(GetRun(run.number)).Some? ==> GetRun(run.number) == old(GetRun(run.number))
    {
      runs := runs + [run];
      assert forall k :: 0 <= k < |old(runs)| ==> runs[k] == old(runs)[k];
    }

    /** `removeRun`: every run of the number is dropped, the others kept in
        order. */
    method RemoveRun(runNumber: int)
      modifies this
      ensures runs == Without(old(runs), RunNumbers(old(runs)), runNumber)
      ensures GetRun(runNumber).None?
      ensures forall k :: 0 <= k < |old(runs)| && old(runs)[k].number != runNumber ==> old(runs)[k] in runs
      ensures modules == old(modules) && name == old(name) && fileName == old(fileName)
    {
      var kept := Without(runs, RunNumbers(runs), runNumber);
      assert forall k :: 0 <= k < |runs| && runs[k].number != runNumber ==> runs[k] in kept by {
        WithoutSpec(runs, RunNumbers(runs), runNumber);
        forall k | 0 <= k < |runs| && runs[k].number != runNumber
          ensures runs[k] in kept
        {
          assert RunNumbers(runs)[k] != runNumber;
        }
      }
      assert forall k :: 0 <= k < |kept| ==> kept[k].number != runNumber by {
        NoRunOfNumber(runs, runNumber);
      }
      runs := kept;
    }

    /** A line of the `DAQModules` section: a new module with the type's
        default filters, then each further word applied to it, appended to
        the list. */
    method ReadModuleLine(ghost st: Reader, words: seq<string>) returns (r: Result<(), ConfigError>)
      requires st.modules == ModuleViews(modules) && st.runs == runs
      modifies this
      ensures r.Err? ==> ModuleLine(st, words) == Err(r.error)
      ensures r.Ok? ==> ModuleLine(st, words) == Ok(st.(modules := ModuleViews(modules)))
      ensures runs == old(runs) && name == old(name) && fileName == old(fileName)
      ensures old(modules) <= modules
      ensures forall i :: |old(modules)| <= i < |modules| ==> fresh(modules[i])
      ensures DistinctModules(old(modules)) ==> DistinctModules(modules)
      ensures DefaultChannels(old(modules)) ==> DefaultChannels(modules)
    {
      if |words| < 2 {
        return Ok(());
      }
      if words[1] !in ValidModuleTypes {
        return Err(UnsupportedModuleType(words[1]));
      }
      AppendModule(words);
      return Ok(());
    }

    /** Builds the module of a line and appends it. */
    method AppendModule(words: seq<string>)
      requires |words| >= 2
      modifies this
      ensures |modules| == |old(modules)| + 1 && modules == old(modules) + [modules[|old(modules)|]]
      ensures fresh(modules[|old(modules)|])
      ensures ModuleViews(modules) == old(ModuleViews(modules)) + [NewModule(words)]
      ensures runs == old(runs) && name == old(name) && fileName == old(fileName)
      ensures DistinctModules(old(modules)) ==> DistinctModules(modules)
      ensures Unnamed(modules[|old(modules)|].channelNames)
      ensures DefaultChannels(old(modules)) ==> DefaultChannels(modules)
    {
      var m := BuildModule(words);
      DistinctAppend(modules, m);
      modules := modules + [m];
    }
  
    /** A line of the `Detectors` section: the channel list is parsed
        first; a detector is attached to the first module of the name,
        nothing happens while there are no modules, and a missing module
        is an error. */
    method ReadDetectorLine(ghost st: Reader, words: seq<string>) returns (r: Result<(), ConfigError>)
      requires st.modules == ModuleViews(modules) && DistinctModules(modules)
      modifies modules
      ensures r.Err? ==> DetectorLine(st, words) == Err(r.error)
      ensures r.Ok? ==> DetectorLine(st, words) == Ok(st.(modules := ModuleViews(modules)))
    {
      if |words| < 4 {
        return Ok(());
      }
      var channels := ParseNumberString(words[3]);
      if channels.None? {
        return Err(BadNumberList(words[3]));
      }
      r := AttachToNamedModule(st, words, channels.value);
    }

    /** The rest of a detector line once its channel list is parsed: the
        first module of the name gains the detector; nothing happens while
        there are no modules, and a missing module is an error. */
    method AttachToNamedModule(ghost st: Reader, words: seq<string>, channels: seq<int>) returns (r: Result<(), ConfigError>)
      requires |words| >= 4 && ParseNumbers(words[3]) == Some(channels)
      requires st.modules == ModuleViews(modules) && DistinctModules(modules)
      modifies modules
      ensures r.Err? ==> DetectorLine(st, words) == Err(r.error)
      ensures r.Ok? ==> DetectorLine(st, words) == Ok(st.(modules := ModuleViews(modules)))
    {
      var i := LocateModule(words[2]);
      if modules == [] {
        assert DetectorLine(st, words) == Ok(st) by {
          assert st.modules == ModuleViews(modules) == [];
        }
        return Ok(());
      }
      if i == |modules| {
        assert FindModule(st.modules, words[2]) == None by {
          assert forall j :: 0 <= j < |modules| ==> st.modules[j].name == modules[j].name;
        }
        return Err(UnknownModule(words[2]));
      }
      assert FindModule(st.modules, words[2]) == Some(i) by {
        assert forall j :: 0 <= j < |modules| ==> st.modules[j].name == modules[j].name;
      }
      DetectorLineFound(st, words, channels, i);
      AttachDetector(st.modules, i, words[0], words[1], channels);
      return Ok(());
    }

    /** A line of the `Runs` section. A `FilenamePattern` line replaces the
        pattern; any other line with four words appends one run per number
        of its list, named after the pattern current at that line. Gives
        the pattern after the line. */
    method ReadRunLine(ghost st: Reader, t: string, pattern: string) returns (r: Result<string, ConfigError>)
      requires st.runs == runs && st.pattern == pattern
      modifies this
      ensures r.Err? ==> RunLine(st, t) == Err(r.error)
      ensures r.Ok? ==> RunLine(st, t) == Ok(st.(pattern := r.value, runs := runs))
      ensures modules == old(modules) && name == old(name) && fileName == old(fileName)
    {
      if FindSub(t, PatternKeyword) == Some(0) {
        return Ok(ValueAfterWord(t));
      }
      var ws := Words(t);
      if |ws| < 4 {
        return Ok(pattern);
      }
      var numbers := ParseNumberString(ws[0]);
      if numbers.None? {
        return Err(BadNumberList(ws[0]));
      }
      AppendRuns(numbers.value, ws[1], ws[2], ws[3], pattern);
      return Ok(pattern);
    }

    /** The loop over the numbers of a run line: one `Run` each, appended
        in the order of the list. */
    method AppendRuns(numbers: seq<int>, description: string, runType: string, treeName: string, pattern: string)
      requires InIntRange(numbers)
      modifies this
      ensures runs == old(runs) + RunsOf(numbers, description, runType, treeName, pattern)
      ensures modules == old(modules) && name == old(name) && fileName == old(fileName)
    {
      var k := 0;
      while k < |numbers|
        invariant k <= |numbers|
        invariant runs == old(runs) + RunsOf(numbers[..k], description, runType, treeName, pattern)
        invariant modules == old(modules) && name == old(name) && fileName == old(fileName)
      {
        assert numbers[..k + 1][..k] == numbers[..k];
        var n := numbers[k];
        runs := runs + [Run(n, description, runType, RunFileName(pattern, n), treeName)];
        k := k + 1;
      }
      assert numbers[..k] == numbers;
    }

    /** A line of the option section: `Name <value>` sets the name. */
    method ReadOptionLine(ghost st: Reader, t: string)
      requires st.name == name
      modifies this
      ensures OptionLine(st, t) == st.(name := name)
      ensures modules == old(modules) && runs == old(runs) && fileName == old(fileName)
    {
      var ws := Words(t);
      if ws != [] && ws[0] == "Name" {
        name := ValueAfterWord(t);
      }
    }

    /** The search loop over `daq_modules_`: the index of the first module
        of the name, or the length of the list when there is none. */
    method LocateModule(moduleName: string) returns (i: nat)
      ensures i <= |modules|
      ensures forall j :: 0 <= j < i ==> modules[j].name != moduleName
      ensures i < |modules| ==> modules[i].name == moduleName
    {
      i := 0;
      while i < |modules|
        invariant i <= |modules|
        invariant forall j :: 0 <= j < i ==> modules[j].name != moduleName
      {
        if modules[i].name == moduleName {
          return;
        }
        i := i + 1;
      }
    }

    /** `new Detector(...)` handed to `addDetector` of module `i`: that
        module's view gains the detector, every other view stays. */
    method AttachDetector(ghost views: seq<ModuleSpec>, i: nat, name: string, detectorType: string, channels: seq<int>)
      requires views == ModuleViews(modules)
      requires i < |modules| && DistinctModules(modules)
      modifies modules[i]
      ensures ModuleViews(modules) == views[i := Attach(views[i], DetectorSpec(name, detectorType, channels))]
      ensures DefaultChannels(old(modules)) ==> DefaultChannels(modules)
    {
      var d := new Detector(name, detectorType, channels);
      ghost var before := ModuleViews(modules);
      ghost var olds := modules[i].detectors;
      modules[i].AddDetector(d);
      assert DetectorViews(modules[i].detectors) == old(DetectorViews(olds)) + [DetectorSpec(name, detectorType, channels)];
      forall j | 0 <= j < |modules| && j != i
        ensures ModuleViews(modules)[j] == before[j]
      {
        assert modules[j] != modules[i];
      }
    }
  }
}

=== FILE: number_spec.dfy ===
/** Channel and run-number lists as the configuration file writes them
    ("0-3,7"): the pure specification that both copies of
    `parseNumberString` implement. */
module NumberString {
  import opened Wrappers
  import opened Seqs
  import opened StdText

  /** The integers `a, a+1, ..., b`; empty when `a > b`. */
  function Range(a: int, b: int): (r: seq<int>)
    ensures |r| == if a <= b then b - a + 1 else 0
    ensures forall k :: 0 <= k < |r| ==> r[k] == a + k
    decreases b - a
  {
    if a > b then [] else Range(a, b - 1) + [b]
  }

  /** What one comma-separated token contributes: split at its first '-',
      a range of the two `std::stoi` values; otherwise the single value.
      `None` where `std::stoi` throws. */
  function ExpandToken(t: string): (r: Option<seq<int>>)
    ensures r.Some? && '-' !in t ==> |r.value| == 1
  {
    match IndexOf(t, '-')
    case Some(d) =>
      var lo, hi := Stoi(t[..d]), Stoi(t[d + 1..]);
      if lo.None? || hi.None? then None else Some(Range(lo.value, hi.value))
    case None =>
      var n := Stoi(t);
      if n.None? then None else Some([n.value])
  }

  /** Whatever a token yields is a run of consecutive numbers: a range
      from its first element to its last. */
  lemma ExpandTokenConsecutive(t: string)
    requires ExpandToken(t).Some? && ExpandToken(t).value != []
    ensures var ns := ExpandToken(t).value; ns == Range(ns[0], ns[|ns| - 1])
  {
    var ns := ExpandToken(t).value;
    if IndexOf(t, '-').None? {
      assert Range(ns[0], ns[0]) == Range(ns[0], ns[0] - 1) + [ns[0]];
    }
  }

  predicate InIntRange(ns: seq<int>) {
    forall k :: 0 <= k < |ns| ==> 0 <= ns[k] <= IntMax
  }

  /** A token never yields a negative number: the text before the first
      '-' holds no '-', and a range ending below zero is empty. */
  lemma ExpandTokenInRange(t: string)
    ensures ExpandToken(t).Some? ==> InIntRange(ExpandToken(t).value)
  {
    match IndexOf(t, '-')
    case Some(d) =>
      assert '-' !in t[..d];
    case None =>
  }

  /** Both halves of a `Some` pair appended, or `None` if either failed;
      the way a failing `stoi` aborts the whole loop. */
  function Concat(x: Option<seq<int>>, y: Option<seq<int>>): Option<seq<int>> {
    if x.None? || y.None? then None else Some(x.value + y.value)
  }

  /** The per-token expansions, left to right. */
  function ExpandTokens(toks: seq<string>): (r: Option<seq<int>>)
    ensures r.None? <==> exists i :: 0 <= i < |toks| && ExpandToken(toks[i]).None?
    ensures r.Some? ==> InIntRange(r.value)
  {
    if toks == [] then Some([])
    else
      var head, tail := ExpandToken(toks[0]), ExpandTokens(toks[1..]);
      ExpandTokenInRange(toks[0]);
      SomeTokenFails(toks);
      if head.Some? && tail.Some? then
        InIntRangeAppend(head.value, tail.value);
        Concat(head, tail)
      else
        Concat(head, tail)
  }

  /** Some token fails exactly when the first one does or one of the rest. */
  lemma SomeTokenFails(toks: seq<string>)
    requires toks != []
    ensures (exists i :: 0 <= i < |toks| && ExpandToken(toks[i]).None?) <==>
      ExpandToken(toks[0]).None? || exists i :: 0 <= i < |toks[1..]| && ExpandToken(toks[1..][i]).None?
  {
    assert forall i :: 1 <= i < |toks| ==> toks[i] == toks[1..][i - 1];
  }

  lemma InIntRangeAppend(a: seq<int>, b: seq<int>)
    requires InIntRange(a) && InIntRange(b)
    ensures InIntRange(a + b)
  {
    assert forall k :: |a| <= k < |a + b| ==> (a + b)[k] == b[k - |a|];
  }

  /** `parseNumberString(s)`: `None` where the source throws. */
  function ParseNumbers(s: string): (r: Option<seq<int>>)
    ensures r.Some? ==> InIntRange(r.value)
  {
    ExpandTokens(Split(s, ','))
  }

  /** Tokens expand independently: the expansion of a concatenation is the
      concatenation of the expansions. */
  lemma {:induction false} ExpandTokensAppend(x: seq<string>, y: seq<string>)
    ensures ExpandTokens(x + y) == Concat(ExpandTokens(x), ExpandTokens(y))
  {
    if x == [] {
      assert x + y == y;
      if ExpandTokens(y).Some? {
        assert [] + ExpandTokens(y).value == ExpandTokens(y).value;
      }
    } else {
      assert (x + y)[0] == x[0] && (x + y)[1..] == x[1..] + y;
      ExpandTokensAppend(x[1..], y);
      var h := ExpandToken(x[0]);
      if h.Some? && ExpandTokens(x[1..]).Some? && ExpandTokens(y).Some? {
        ConcatAssoc(h.value, ExpandTokens(x[1..]).value, ExpandTokens(y).value);
      }
    }
  }

  /** Numbers already pushed, then a token's expansion, then the rest. */
  lemma ConcatShift(done: seq<int>, e: seq<int>, rest: Option<seq<int>>)
    ensures Concat(Some(done), Concat(Some(e), rest)) == Concat(Some(done + e), rest)
  {
    if rest.Some? {
      ConcatAssoc(done, e, rest.value);
    }
  }

  lemma ConcatNothing(rest: Option<seq<int>>)
    ensures Concat(Some([]), rest) == rest
  {
    if rest.Some? {
      assert [] + rest.value == rest.value;
    }
  }

  lemma ConcatAssoc(a: seq<int>, b: seq<int>, c: seq<int>)
    ensures a + (b + c) == (a + b) + c
  {
  }

  /** Text joined by a comma parses as the two parts, one after the other,
      provided the first part does not itself end in a comma. */
  lemma {:induction false} ParseNumbersAppend(a: string, b: string)
    requires a != [] && a[|a| - 1] != ','
    ensures ParseNumbers(a + "," + b) == Concat(ParseNumbers(a), ParseNumbers(b))
  {
    SplitAppend(a, b, ',');
    ExpandTokensAppend(Split(a, ','), Split(b, ','));
  }

  /** A plain number written in decimal reads back as itself. */
  lemma {:induction false} SingleToken(n: nat)
    requires n <= IntMax
    ensures ExpandToken(ToDecimal(n)) == Some([n])
  {
    var t := ToDecimal(n);
    assert !IsDigit('-');
    assert '-' !in t;
    StoiOfDecimal(n);
  }

  /** `a-b` expands to the range `a..b`, ascending, empty when `a > b`. */
  lemma {:induction false} RangeToken(a: nat, b: nat)
    requires a <= IntMax && b <= IntMax
    ensures ExpandToken(ToDecimal(a) + "-" + ToDecimal(b)) == Some(Range(a, b))
  {
    var x, y := ToDecimal(a), ToDecimal(b);
    var t := x + ("-" + y);
    assert t == x + "-" + y;
    assert !IsDigit('-');
    assert '-' !in x;
    IndexOfAppend(x, "-" + y, '-');
    assert IndexOf(t, '-') == Some(|x|);
    assert t[..|x|] == x && t[|x| + 1..] == y;
    StoiOfDecimal(a);
    StoiOfDecimal(b);
  }

  /** A token opening with '-' has nothing before its dash: `stoi("")`
      throws, so "-3" is rejected rather than read as minus three. */
  lemma {:induction false} LeadingDashFails(t: string)
    requires t != [] && t[0] == '-'
    ensures ExpandToken(t) == None
  {
    assert IndexOf(t, '-') == Some(0);
    assert t[..0] == [];
  }

  /** A token without a single digit is rejected, the empty one included. */
  lemma {:induction false} NoDigitFails(t: string)
    requires forall i :: 0 <= i < |t| ==> !IsDigit(t[i])
    ensures ExpandToken(t) == None
  {
    match IndexOf(t, '-')
    case Some(d) =>
      StoiWithoutDigits(t[..d]);
    case None =>
      StoiWithoutDigits(t);
  }

  /** `std::stoi` throws on a text without digits. */
  lemma {:induction false} StoiWithoutDigits(s: string)
    requires forall i :: 0 <= i < |s| ==> !IsDigit(s[i])
    ensures Stoi(s) == None
  {
    var t := SkipSpaces(s);
    if t != [] {
      assert t[0] == s[|s| - |t|];
      if |t| > 1 {
        assert t[1] == s[|s| - |t| + 1];
      }
    }
  }

  /** A list with an empty entry fails, wherever the empty entry is. */
  lemma {:induction false} EmptyEntryFails(a: string, b: string)
    requires a != [] && a[|a| - 1] != ','
    ensures ParseNumbers(a + ",," + b) == None
  {
    assert a + ",," + b == a + "," + ("," + b);
    ParseNumbersAppend(a, "," + b);
    LeadingCommaFails(b);
  }

  /** A list opening with a comma has an empty first entry. */
  lemma LeadingCommaFails(b: string)
    ensures ParseNumbers("," + b) == None
  {
    var s := "," + b;
    assert IndexOf(s, ',') == Some(0);
    assert s[..0] == [];
    NoDigitFails([]);
    assert Split(s, ',')[0] == [];
  }

  // ---------------------------------------------------------------------
  // Writing a list back

  /** One entry of a list: a single number or an inclusive range. */
  datatype Entry = Single(n: nat) | Span(lo: nat, hi: nat)

  predicate EntryFits(e: Entry) {
    match e
    case Single(n) => n <= IntMax
    case Span(lo, hi) => lo <= IntMax && hi <= IntMax
  }

  function EntryText(e: Entry): (t: string)
    ensures t != [] && ',' !in t
  {
    assert !IsDigit(',') && !IsDigit('-');
    match e
    case Single(n) => ToDecimal(n)
    case Span(lo, hi) =>
      var t := ToDecimal(lo) + "-" + ToDecimal(hi);
      assert forall i :: 0 <= i < |t| ==> t[i] != ',' by {
        forall i | 0 <= i < |t| ensures t[i] != ',' {
          if i < |ToDecimal(lo)| {
            assert IsDigit(ToDecimal(lo)[i]);
          } else if i > |ToDecimal(lo)| {
            assert IsDigit(ToDecimal(hi)[i - |ToDecimal(lo)| - 1]);
          }
        }
      }
      t
  }

  /** The numbers a list of entries stands for, defined independently of
      any text. */
  function Meaning(es: seq<Entry>): seq<int> {
    if es == [] then []
    else
      (match es[0] case Single(n) => [n as int] case Span(lo, hi) => Range(lo, hi)) + Meaning(es[1..])
  }

  /** The list written with commas. */
  function Format(es: seq<Entry>): string {
    Join(TextsOf(es), ',')
  }

  function TextsOf(es: seq<Entry>): (ts: seq<string>)
    ensures |ts| == |es|
    ensures forall i :: 0 <= i < |ts| ==> ts[i] == EntryText(es[i])
  {
    seq(|es|, i requires 0 <= i < |es| => EntryText(es[i]))
  }

  /** Writing a list and parsing it back gives the numbers it stands for. */
  lemma {:induction false} ParseFormat(es: seq<Entry>)
    requires forall i :: 0 <= i < |es| ==> EntryFits(es[i])
    ensures ParseNumbers(Format(es)) == Some(Meaning(es))
  {
    var ts := TextsOf(es);
    SplitJoin(ts, ',');
    ExpandTexts(es);
  }

  lemma {:induction false} ExpandTexts(es: seq<Entry>)
    requires forall i :: 0 <= i < |es| ==> EntryFits(es[i])
    ensures ExpandTokens(TextsOf(es)) == Some(Meaning(es))
  {
    if es != [] {
      var ts := TextsOf(es);
      assert ts[0] == EntryText(es[0]) && ts[1..] == TextsOf(es[1..]);
      assert EntryFits(es[0]);
      var head := match es[0] case Single(n) => [n as int] case Span(lo, hi) => Range(lo, hi);
      assert ExpandToken(ts[0]) == Some(head) by {
        match es[0]
        case Single(n) => SingleToken(n);
        case Span(lo, hi) => RangeToken(lo, hi);
      }
      ExpandTexts(es[1..]);
      assert ExpandTokens(ts) == Concat(ExpandToken(ts[0]), ExpandTokens(ts[1..]));
      assert Meaning(es) == head + Meaning(es[1..]);
    }
  }

  /** Text without a comma is one token. */
  lemma {:induction false} ParseOneToken(t: string)
    requires t != [] && ',' !in t
    ensures ParseNumbers(t) == ExpandToken(t)
  {
    assert Split(t, ',') == [t];
    var e := ExpandToken(t);
    assert ExpandTokens([t]) == Concat(e, ExpandTokens([]));
    if e.Some? {
      assert e.value + [] == e.value;
    }
  }

  /** One step of the `getline` loop: the parse of the text is the
      expansion of the token extracted first, followed by the parse of what
      is left after its comma. */
  lemma {:induction false} ParseNumbersStep(s: string, token: string, rest: string)
    requires s != []
    requires IndexOf(s, ',').None? ==> token == s && rest == []
    requires IndexOf(s, ',').Some? ==>
      token == s[..IndexOf(s, ',').value] && rest == s[IndexOf(s, ',').value + 1..]
    ensures ParseNumbers(s) == Concat(ExpandToken(token), ParseNumbers(rest))
  {
    var ts := [token] + Split(rest, ',');
    if IndexOf(s, ',').None? {
      assert Split(s, ',') == [s];
      assert Split(rest, ',') == [];
      assert ts == [s];
    } else {
      assert Split(s, ',') == ts;
    }
    assert ts[0] == token && ts[1..] == Split(rest, ',');
  }

  // ---------------------------------------------------------------------
  // The range loop as written: an `Int_t` counter

  /** `++i` on a 32-bit `Int_t`: past IntMax it wraps to IntMin (signed
      overflow is undefined in C++; wrapping is what the machine does). */
  function Increment32(i: int): (j: int)
    requires IntMin <= i <= IntMax
    ensures IntMin <= j <= IntMax
  {
    if i == IntMax then IntMin else i + 1
  }

  /** The counter of `for (Int_t i = start; i <= end; ++i)` after `steps`
      increments. */
  function Counter32(start: int, steps: nat): (i: int)
    requires IntMin <= start <= IntMax
    ensures IntMin <= i <= IntMax
  {
    if steps == 0 then start else Increment32(Counter32(start, steps - 1))
  }

  /** Below the top of the range the counter counts. */
  lemma {:induction false} CounterCounts(start: int, steps: nat)
    requires IntMin <= start && start + steps <= IntMax
    ensures Counter32(start, steps) == start + steps
  {
    if steps > 0 {
      CounterCounts(start, steps - 1);
    }
  }

  /** For a range token ending at IntMax, which `RangeToken` shows is
      accepted, the guard `i <= end` of the loop as written holds after every step:
      after pushing IntMax the counter wraps to IntMin and the loop goes on
      pushing negative numbers without end. The intended list is
      `Range(start, IntMax)`, which the loops over an unbounded counter
      compute. The third clause follows from the 32-bit range of
      `Counter32` alone; it is stated because with `end == IntMax` it is
      exactly the guard the loop tests, so no step ever leaves the loop. */
  lemma RangeToIntMaxNeverEnds(start: nat, steps: nat)
    requires start <= IntMax
    ensures Counter32(start, IntMax - start) == IntMax
    ensures Counter32(start, IntMax - start + 1) == IntMin
    ensures Counter32(start, steps) <= IntMax
  {
    CounterCounts(start, IntMax - start);
  }
}

=== FILE: seqs.dfy ===
/** Searches and removals over sequences, as `std::find`, `TString::Last`,
    `std::vector::erase` and the erase/`remove_if` idiom perform them. */
module Seqs {
  import opened Wrappers

  /** Index of the first occurrence of `x` (`std::find`, `std::string::find`). */
  function IndexOf<T(==)>(s: seq<T>, x: T): (r: Option<nat>)
    ensures r.Some? ==> r.value < |s| && s[r.value] == x && x !in s[..r.value]
    ensures r.None? <==> x !in s
  {
    if s == [] then None
    else if s[0] == x then Some(0)
    else
      match IndexOf(s[1..], x)
      case None => None
      case Some(i) =>
        assert s[..i + 1] == [s[0]] + s[1..][..i];
        Some(i + 1)
  }

  /** Index of the last occurrence of `x` (`TString::Last`, `find_last_of`). */
  function LastIndexOf<T(==)>(s: seq<T>, x: T): (r: Option<nat>)
    ensures r.Some? ==> r.value < |s| && s[r.value] == x && x !in s[r.value + 1..]
    ensures r.None? <==> x !in s
  {
    if s == [] then None
    else if s[|s| - 1] == x then Some(|s| - 1)
    else
      var r := LastIndexOf(s[..|s| - 1], x);
      assert s == s[..|s| - 1] + [s[|s| - 1]];
      if r.Some? then
        assert s[r.value + 1..] == s[..|s| - 1][r.value + 1..] + [s[|s| - 1]];
        r
      else r
  }

  /** Searching a concatenation searches the first part, then the second. */
  lemma {:induction false} IndexOfAppend<T>(a: seq<T>, b: seq<T>, x: T)
    ensures IndexOf(a + b, x) ==
      if x in a then IndexOf(a, x)
      else match IndexOf(b, x) case None => None case Some(i) => Some(|a| + i)
  {
    if a == [] {
      assert a + b == b;
    } else if a[0] != x {
      assert (a + b)[1..] == a[1..] + b;
      IndexOfAppend(a[1..], b, x);
    }
  }

  /** A non-empty sequence is its head followed by its tail; stated
      generically so that callers over nested sequences stay cheap. */
  lemma HeadTail<T>(s: seq<T>)
    requires s != []
    ensures s == [s[0]] + s[1..]
  {
  }

  lemma ConsAppend<T>(x: T, s: seq<T>, t: seq<T>)
    ensures [x] + (s + t) == ([x] + s) + t
  {
  }

  predicate NoDuplicates<T(==)>(s: seq<T>) {
    forall i, j :: 0 <= i < j < |s| ==> s[i] != s[j]
  }

  /** `v.erase(std::find(v.begin(), v.end(), x))` guarded by a found check:
      drops the first `x`, if any. */
  function RemoveFirst<T(==)>(s: seq<T>, x: T): (r: seq<T>)
    ensures x !in s ==> r == s
    ensures x in s ==> |r| == |s| - 1 && multiset(r) == multiset(s) - multiset{x}
    ensures x in s ==> var i := IndexOf(s, x).value; r[..i] == s[..i] && r[i..] == s[i + 1..]
  {
    match IndexOf(s, x)
    case None => s
    case Some(i) =>
      assert s == s[..i] + [x] + s[i + 1..];
      s[..i] + s[i + 1..]
  }

  /** Removing an element that was just appended, and occurred nowhere
      before, gives back the original sequence. */
  lemma {:induction false} RemoveFirstUndoesAppend<T>(s: seq<T>, x: T)
    requires x !in s
    ensures RemoveFirst(s + [x], x) == s
  {
    var t := s + [x];
    assert x in t && t[|s|] == x;
    var i := IndexOf(t, x).value;
    assert i == |s|;
    assert t[..i] == s;
  }

  /** The elements of `s` whose parallel key differs from `k`, in their
      original order: what erase/`remove_if` on a key comparison leaves. */
  function Without<T, K(==)>(s: seq<T>, keys: seq<K>, k: K): (r: seq<T>)
    requires |s| == |keys|
    ensures |r| <= |s|
    ensures forall x :: x in r ==> x in s
    ensures k !in keys ==> r == s
    decreases |s|
  {
    if s == [] then []
    else (if keys[0] == k then [] else [s[0]]) + Without(s[1..], keys[1..], k)
  }

  /** An element stays exactly when its key differs from `k`. */
  lemma {:induction false} WithoutSpec<T, K>(s: seq<T>, keys: seq<K>, k: K)
    requires |s| == |keys|
    ensures forall i :: 0 <= i < |s| && keys[i] != k ==> s[i] in Without(s, keys, k)
    ensures forall x :: x in Without(s, keys, k) ==> exists i :: 0 <= i < |s| && s[i] == x && keys[i] != k
    decreases |s|
  {
    if s != [] {
      WithoutSpec(s[1..], keys[1..], k);
      var r := Without(s, keys, k);
      var rest := Without(s[1..], keys[1..], k);
      assert r == (if keys[0] == k then [] else [s[0]]) + rest;
      forall i | 1 <= i < |s| && keys[i] != k
        ensures s[i] in r
      {
        assert s[1..][i - 1] == s[i] && keys[1..][i - 1] == keys[i];
      }
      forall x | x in rest
        ensures exists i :: 0 <= i < |s| && s[i] == x && keys[i] != k
      {
        var j :| 0 <= j < |s| - 1 && s[1..][j] == x && keys[1..][j] != k;
        assert s[j + 1] == x && keys[j + 1] != k;
      }
    }
  }

  /** The removal works element by element and keeps the survivors in
      their order: removing from `a + b` removes from `a`, then from `b`. */
  lemma {:induction false} WithoutAppend<T, K>(a: seq<T>, b: seq<T>, ka: seq<K>, kb: seq<K>, k: K)
    requires |a| == |ka| && |b| == |kb|
    ensures Without(a + b, ka + kb, k) == Without(a, ka, k) + Without(b, kb, k)
    decreases |a|
  {
    if a == [] {
      assert a + b == b && ka + kb == kb;
    } else {
      assert (a + b)[0] == a[0] && (a + b)[1..] == a[1..] + b;
      assert (ka + kb)[0] == ka[0] && (ka + kb)[1..] == ka[1..] + kb;
      WithoutAppend(a[1..], b, ka[1..], kb, k);
    }
  }

  /** Removing the key of an element that was just appended, when no
      earlier element had that key, gives back the original sequence. */
  lemma {:induction false} WithoutUndoesAppend<T, K>(s: seq<T>, keys: seq<K>, x: T, k: K)
    requires |s| == |keys| && k !in keys
    ensures Without(s + [x], keys + [k], k) == s
    decreases |s|
  {
    if s == [] {
      assert Without([x], [k], k) == [] + Without([], [], k);
    } else {
      assert (s + [x])[1..] == s[1..] + [x] && (keys + [k])[1..] == keys[1..] + [k];
      WithoutUndoesAppend(s[1..], keys[1..], x, k);
    }
  }
}

=== FILE: std_text.dfy ===
/** The C++ standard-library string and stream routines that the
    configuration reader relies on: `find_first_not_of(" \t")` trimming,
    `operator>>` word extraction, `std::getline` with a delimiter, `std::stoi`,
    `std::setw(3) << std::setfill('0')` and `std::string::replace`. */
module StdText {
  import opened Wrappers
  import opened Seqs

  /** `std::isspace` in the "C" locale: what `operator>>` skips and stops at. */
  predicate IsSpace(c: char) {
    c == ' ' || c == '\t' || c == '\n' || c == '\U{0B}' || c == '\U{0C}' || c == '\r'
  }

  /** The two characters the reader trims with `find_first_not_of(" \t")`. */
  predicate IsBlank(c: char) {
    c == ' ' || c == '\t'
  }

  predicate AllBlank(s: string) {
    forall i :: 0 <= i < |s| ==> IsBlank(s[i])
  }

  // ---------------------------------------------------------------------
  // Trimming on space and tab

  /** `find_first_not_of(" \t")`, `None` standing for `npos`. */
  function FirstNonBlank(s: string): (r: Option<nat>)
    ensures r.Some? ==> r.value < |s| && !IsBlank(s[r.value]) && AllBlank(s[..r.value])
    ensures r.None? <==> AllBlank(s)
  {
    if s == [] then None
    else if !IsBlank(s[0]) then Some(0)
    else
      match FirstNonBlank(s[1..])
      case None => None
      case Some(i) =>
        assert s[..i + 1] == [s[0]] + s[1..][..i];
        Some(i + 1)
  }

  /** `find_last_not_of(" \t")`, `None` standing for `npos`. */
  function LastNonBlank(s: string): (r: Option<nat>)
    ensures r.Some? ==> r.value < |s| && !IsBlank(s[r.value]) && AllBlank(s[r.value + 1..])
    ensures r.None? <==> AllBlank(s)
  {
    if s == [] then None
    else if !IsBlank(s[|s| - 1]) then Some(|s| - 1)
    else
      var r := LastNonBlank(s[..|s| - 1]);
      assert s == s[..|s| - 1] + [s[|s| - 1]];
      if r.Some? then
        assert s[r.value + 1..] == s[..|s| - 1][r.value + 1..] + [s[|s| - 1]];
        r
      else r
  }

  /** `line.substr(start, end - start + 1)` for the first and last
      non-blank positions: the line without its leading and trailing
      spaces and tabs. */
  function Trim(s: string): (t: string)
    requires !AllBlank(s)
    ensures t != [] && !IsBlank(t[0]) && !IsBlank(t[|t| - 1])
    ensures var i := FirstNonBlank(s).value;
      i + |t| <= |s| && s == s[..i] + t + s[i + |t|..] && AllBlank(s[..i]) && AllBlank(s[i + |t|..])
  {
    var i := FirstNonBlank(s).value;
    var j := LastNonBlank(s).value;
    s[i..j + 1]
  }

  /** What is left after dropping the leading blanks, when there is
      something non-blank; otherwise the text unchanged. This is how the
      reader trims an option value and a file-name pattern. */
  function TrimLeading(s: string): (t: string)
    ensures |t| <= |s|
    ensures !AllBlank(s) ==> t != [] && !IsBlank(t[0]) && s == s[..|s| - |t|] + t && AllBlank(s[..|s| - |t|])
    ensures AllBlank(s) ==> t == s
  {
    match FirstNonBlank(s)
    case None => s
    case Some(i) =>
      assert s == s[..i] + s[i..];
      s[i..]
  }

  // ---------------------------------------------------------------------
  // operator>> on an istringstream

  /** A word as `operator>>` extracts it: non-empty, without white space. */
  predicate NoSpace(w: string) {
    forall i :: 0 <= i < |w| ==> !IsSpace(w[i])
  }

  predicate IsWord(w: string) {
    w != [] && NoSpace(w)
  }

  function SkipSpaces(s: string): (r: string)
    ensures |r| <= |s| && r == s[|s| - |r|..]
    ensures r == [] || !IsSpace(r[0])
    ensures forall k :: 0 <= k < |s| - |r| ==> IsSpace(s[k])
  {
    if s != [] && IsSpace(s[0]) then SkipSpaces(s[1..]) else s
  }

  /** The longest prefix without white space. */
  function WordAt(s: string): (w: string)
    ensures |w| <= |s| && w == s[..|w|]
    ensures NoSpace(w)
    ensures |w| == |s| || IsSpace(s[|w|])
  {
    if s == [] || IsSpace(s[0]) then []
    else
      var w := WordAt(s[1..]);
      assert [s[0]] + w == s[..|w| + 1];
      [s[0]] + w
  }

  /** The successive results of `iss >> word` until extraction fails:
      never more words than characters. */
  function Words(s: string): (ws: seq<string>)
    ensures |ws| <= |s|
    decreases |s|
  {
    var t := SkipSpaces(s);
    if t == [] then []
    else
      assert !IsSpace(t[0]);
      var w := WordAt(t);
      assert |w| != 0;
      [w] + Words(t[|w|..])
  }

  /** Every extracted word is non-empty and free of white space. */
  lemma {:induction false} WordsAreWords(s: string, i: nat)
    requires i < |Words(s)|
    ensures IsWord(Words(s)[i])
    decreases |s|
  {
    var t := SkipSpaces(s);
    var w := WordAt(t);
    var rest := Words(t[|w|..]);
    assert Words(s) == [w] + rest;
    if i > 0 {
      WordsAreWords(t[|w|..], i - 1);
      assert Words(s)[i] == rest[i - 1];
    }
  }

  /** What `std::getline(iss, rest)` reads after one `iss >> word`. */
  function AfterFirstWord(s: string): (rest: string)
    ensures |rest| <= |s| && rest == s[|s| - |rest|..]
  {
    var t := SkipSpaces(s);
    t[|WordAt(t)|..]
  }

  /** Words joined by single spaces, the inverse of `Words`. */
  function Unwords(ws: seq<string>): string {
    if ws == [] then [] else if |ws| == 1 then ws[0] else ws[0] + " " + Unwords(ws[1..])
  }

  lemma {:induction false} WordAtWord(w: string, rest: string)
    requires NoSpace(w)
    requires rest == [] || IsSpace(rest[0])
    ensures WordAt(w + rest) == w
    decreases |w|
  {
    if w != [] {
      assert (w + rest)[1..] == w[1..] + rest;
      WordAtWord(w[1..], rest);
    } else {
      assert w + rest == rest;
    }
  }

  /** `>>` skips exactly the leading white space. */
  lemma {:induction false} SkipSpacesOfBlanks(b: string, x: string)
    requires forall i :: 0 <= i < |b| ==> IsSpace(b[i])
    requires x == [] || !IsSpace(x[0])
    ensures SkipSpaces(b + x) == x
    decreases |b|
  {
    if b == [] {
      assert b + x == x;
    } else {
      assert (b + x)[0] == b[0] && (b + x)[1..] == b[1..] + x;
      SkipSpacesOfBlanks(b[1..], x);
    }
  }

  /** After one `>>`, `getline` reads exactly what follows the first word:
      leading white space, a word, then text that is empty or opens with
      white space, leaves that text. */
  lemma AfterFirstWordIsRest(b: string, w: string, rest: string)
    requires forall i :: 0 <= i < |b| ==> IsSpace(b[i])
    requires IsWord(w)
    requires rest == [] || IsSpace(rest[0])
    ensures AfterFirstWord(b + w + rest) == rest
  {
    assert b + w + rest == b + (w + rest);
    assert (w + rest)[0] == w[0];
    SkipSpacesOfBlanks(b, w + rest);
    WordAtWord(w, rest);
    assert (w + rest)[|w|..] == rest;
  }

  /** A word followed by white space or nothing is the first word. */
  lemma {:induction false} WordsCons(w: string, rest: string)
    requires IsWord(w) && (rest == [] || IsSpace(rest[0]))
    ensures Words(w + rest) == [w] + Words(rest)
  {
    var s := w + rest;
    assert w[0] in w;
    assert SkipSpaces(s) == s;
    var u := WordAt(s);
    WordAtWord(w, rest);
    assert s[|u|..] == rest;
    if rest == [] {
      assert Words(rest) == [];
    } else {
      assert SkipSpaces(rest) == SkipSpaces(rest[1..]);
    }
  }

  lemma {:induction false} WordsOfUnwords(ws: seq<string>)
    requires forall i :: 0 <= i < |ws| ==> IsWord(ws[i])
    ensures Words(Unwords(ws)) == ws
  {
    if |ws| == 1 {
      assert Unwords(ws) == ws[0] + [];
      WordsCons(ws[0], []);
    } else if |ws| > 1 {
      calc {
        Words(Unwords(ws));
        Words(ws[0] + " " + Unwords(ws[1..]));
        { assert IsWord(ws[0]); WordsSpaceJoin(ws[0], Unwords(ws[1..])); }
        [ws[0]] + Words(Unwords(ws[1..]));
        { WordsOfUnwords(ws[1..]); }
        [ws[0]] + ws[1..];
        { HeadTail(ws); }
        ws;
      }
    }
  }

  /** A word, a space, then any text: the word comes first. */
  lemma WordsSpaceJoin(w: string, tail: string)
    requires IsWord(w)
    ensures Words(w + " " + tail) == [w] + Words(tail)
  {
    var rest := " " + tail;
    assert w + " " + tail == w + rest;
    WordsCons(w, rest);
    assert rest[1..] == tail;
    assert SkipSpaces(rest) == SkipSpaces(tail);
  }

  // ---------------------------------------------------------------------
  // std::getline with a delimiter

  /** The successive tokens `std::getline(iss, token, delim)` returns: the
      text split at every delimiter, except that a final empty piece is never
      returned (getline fails once nothing is left to extract). */
  function Split(s: string, delim: char): (toks: seq<string>)
    ensures forall i :: 0 <= i < |toks| ==> delim !in toks[i]
    ensures s == [] <==> toks == []
    decreases |s|
  {
    if s == [] then []
    else
      match IndexOf(s, delim)
      case None => [s]
      case Some(i) => [s[..i]] + Split(s[i + 1..], delim)
  }

  /** The tokens written back with the delimiter between them. */
  function Join(toks: seq<string>, delim: char): string {
    if toks == [] then [] else if |toks| == 1 then toks[0] else toks[0] + [delim] + Join(toks[1..], delim)
  }

  /** Splitting undoes joining, as long as no token holds the delimiter and
      the last token is not empty. */
  lemma {:induction false} SplitJoin(toks: seq<string>, delim: char)
    requires forall i :: 0 <= i < |toks| ==> delim !in toks[i]
    requires toks == [] || toks[|toks| - 1] != []
    ensures Split(Join(toks, delim), delim) == toks
  {
    if |toks| == 1 {
      assert IndexOf(toks[0], delim).None?;
    } else if |toks| > 1 {
      var t0, s := toks[0], Join(toks, delim);
      var tail := Join(toks[1..], delim);
      assert s == t0 + [delim] + tail;
      assert delim !in t0;
      assert s[|t0|] == delim;
      var i := IndexOf(s, delim).value;
      assert i == |t0|;
      assert s[..i] == t0 && s[i + 1..] == tail;
      SplitJoin(toks[1..], delim);
      assert toks == [t0] + toks[1..];
    }
  }

  /** Tokens of a text are the tokens of its parts when the first part
      ends with a character other than the delimiter. */
  lemma {:induction false} SplitAppend(a: string, b: string, delim: char)
    requires a != [] && a[|a| - 1] != delim
    ensures Split(a + [delim] + b, delim) == Split(a, delim) + Split(b, delim)
    decreases |a|
  {
    var s := a + ([delim] + b);
    assert s == a + [delim] + b;
    IndexOfAppend(a, [delim] + b, delim);
    match IndexOf(a, delim)
    case None =>
      assert IndexOf(s, delim) == Some(|a|);
      assert s[..|a|] == a && s[|a| + 1..] == b;

    case Some(i) =>
      var a' := a[i + 1..];
      assert a' != [] && a'[|a'| - 1] == a[|a| - 1];
      assert s[..i] == a[..i];
      assert s[i + 1..] == a' + [delim] + b;
      SplitAppend(a', b, delim);
      Seqs.ConsAppend(a[..i], Split(a', delim), Split(b, delim));
  }

  // ---------------------------------------------------------------------
  // std::stoi

  const IntMin: int := -0x8000_0000
  const IntMax: int := 0x7FFF_FFFF

  predicate IsDigit(c: char) {
    '0' <= c <= '9'
  }

  predicate AllDigits(s: string) {
    forall i :: 0 <= i < |s| ==> IsDigit(s[i])
  }

  function DigitValue(c: char): nat
    requires IsDigit(c)
  {
    (c as int) - ('0' as int)
  }

  function DigitChar(d: nat): (c: char)
    requires d < 10
    ensures IsDigit(c) && DigitValue(c) == d
  {
    ('0' as int + d) as char
  }

  /** Decimal value of a string of digits, most significant first. */
  function DigitsValue(ds: string): nat
    requires AllDigits(ds)
  {
    if ds == [] then 0 else DigitsValue(ds[..|ds| - 1]) * 10 + DigitValue(ds[|ds| - 1])
  }

  /** Number of leading digits. */
  function DigitPrefixLength(s: string): (n: nat)
    ensures n <= |s| && AllDigits(s[..n])
    ensures n == |s| || !IsDigit(s[n])
  {
    if s == [] || !IsDigit(s[0]) then 0
    else
      var n := DigitPrefixLength(s[1..]);
      assert s[..n + 1] == [s[0]] + s[1..][..n];
      n + 1
  }

  lemma {:induction false} DigitPrefixOfDigits(ds: string)
    requires AllDigits(ds)
    ensures DigitPrefixLength(ds) == |ds|
  {
    if ds != [] {
      DigitPrefixOfDigits(ds[1..]);
    }
  }

  /** Value of the leading digits, if there is at least one. */
  function LeadingNumber(u: string): (r: Option<nat>)
    ensures r.None? <==> u == [] || !IsDigit(u[0])
  {
    var n := DigitPrefixLength(u);
    if n == 0 then None else Some(DigitsValue(u[..n]))
  }

  lemma LeadingNumberOfDigits(ds: string)
    requires ds != [] && AllDigits(ds)
    ensures LeadingNumber(ds) == Some(DigitsValue(ds))
  {
    DigitPrefixOfDigits(ds);
    assert ds[..|ds|] == ds;
  }

  /** `std::stoi(s)`: leading white space, an optional sign and at least
      one digit, stopping at the first non-digit; `None` for the
      `invalid_argument` (no digits) and `out_of_range` (outside a 32-bit
      `int`) exceptions. */
  function Stoi(s: string): (r: Option<int>)
    ensures r.Some? ==> IntMin <= r.value <= IntMax
    ensures r.Some? && r.value < 0 ==> '-' in s
    ensures s == [] ==> r.None?
  {
    var t := SkipSpaces(s);
    var signed := t != [] && (t[0] == '-' || t[0] == '+');
    match LeadingNumber(if signed then t[1..] else t)
    case None => None
    case Some(m) =>
      var v: int := if t[0] == '-' then -(m as int) else m;
      if IntMin <= v <= IntMax then
        assert v < 0 ==> t[0] == '-' && t[0] == s[|s| - |t|];
        Some(v)
      else None
  }

  /** A non-empty run of digits whose value fits is read back exactly. */
  lemma {:induction false} StoiOfDigits(ds: string)
    requires ds != [] && AllDigits(ds) && DigitsValue(ds) <= IntMax
    ensures Stoi(ds) == Some(DigitsValue(ds))
  {
    assert IsDigit(ds[0]);
    assert !IsSpace(ds[0]) && ds[0] != '-' && ds[0] != '+';
    assert SkipSpaces(ds) == ds;
    LeadingNumberOfDigits(ds);
  }

  /** A run of digits whose value exceeds `INT_MAX` is `out_of_range`. */
  lemma {:induction false} StoiOutOfRange(ds: string)
    requires ds != [] && AllDigits(ds) && DigitsValue(ds) > IntMax
    ensures Stoi(ds) == None
  {
    assert IsDigit(ds[0]);
    assert !IsSpace(ds[0]) && ds[0] != '-' && ds[0] != '+';
    assert SkipSpaces(ds) == ds;
    LeadingNumberOfDigits(ds);
  }

  // ---------------------------------------------------------------------
  // Decimal output: operator<< on an int, with setw(3) and setfill('0')

  /** The decimal digits of `n` as `operator<<` writes them. */
  function ToDecimal(n: nat): (r: string)
    ensures r != [] && AllDigits(r)
    ensures DigitsValue(r) == n
    ensures |r| > 1 ==> r[0] != '0'
  {
    if n < 10 then [DigitChar(n)]
    else
      var r := ToDecimal(n / 10) + [DigitChar(n % 10)];
      assert r[..|r| - 1] == ToDecimal(n / 10);
      r
  }

  lemma {:induction false} StoiOfDecimal(n: nat)
    requires n <= IntMax
    ensures Stoi(ToDecimal(n)) == Some(n)
  {
    StoiOfDigits(ToDecimal(n));
  }

  function Zeros(k: nat): (z: string)
    ensures |z| == k && AllDigits(z)
  {
    if k == 0 then [] else Zeros(k - 1) + ['0']
  }

  /** Leading zeros do not change the value of a run of digits. */
  lemma {:induction false} LeadingZerosValue(k: nat, ds: string)
    requires AllDigits(ds)
    ensures DigitsValue(Zeros(k) + ds) == DigitsValue(ds)
    decreases |ds|, k
  {
    var z := Zeros(k);
    if ds == [] {
      assert z + ds == z;
      if k > 0 {
        assert z[..|z| - 1] == Zeros(k - 1);
        LeadingZerosValue(k - 1, []);
        assert Zeros(k - 1) + [] == Zeros(k - 1);
      }
    } else {
      var init := ds[..|ds| - 1];
      assert (z + ds)[..|z + ds| - 1] == z + init;
      LeadingZerosValue(k, init);
    }
  }

  /** `std::setw(3) << std::setfill('0') << n`: the decimal digits of `n`,
      padded on the left with zeros to at least three characters. */
  function Pad3(n: nat): (r: string)
    ensures AllDigits(r) && DigitsValue(r) == n
    ensures |r| == if |ToDecimal(n)| < 3 then 3 else |ToDecimal(n)|
  {
    var d := ToDecimal(n);
    if |d| < 3 then
      LeadingZerosValue(3 - |d|, d);
      Zeros(3 - |d|) + d
    else d
  }

  /** The padded number reads back as the number. */
  lemma {:induction false} StoiOfPad3(n: nat)
    requires n <= IntMax
    ensures Stoi(Pad3(n)) == Some(n)
  {
    StoiOfDigits(Pad3(n));
  }

  // ---------------------------------------------------------------------
  // std::string::find of a substring and std::string::replace

  predicate OccursAt(s: string, p: string, k: nat) {
    k + |p| <= |s| && s[k..k + |p|] == p
  }

  /** `s.find(p)`: the first position where `p` occurs. */
  function FindSub(s: string, p: string): (r: Option<nat>)
    ensures r.Some? ==> OccursAt(s, p, r.value) && forall k :: 0 <= k < r.value ==> !OccursAt(s, p, k)
    ensures r.None? ==> forall k :: 0 <= k ==> !OccursAt(s, p, k)
    decreases |s|
  {
    if |s| < |p| then None
    else if s[..|p|] == p then Some(0)
    else
      var r := FindSub(s[1..], p);
      assert forall k :: 0 <= k ==> (OccursAt(s[1..], p, k) <==> OccursAt(s, p, k + 1)) by {
        forall k | 0 <= k
          ensures OccursAt(s[1..], p, k) <==> OccursAt(s, p, k + 1)
        {
          if k + 1 + |p| <= |s| { assert s[1..][k..k + |p|] == s[k + 1..k + 1 + |p|]; }
        }
      }
      assert !OccursAt(s, p, 0);
      if r.None? then
        assert forall k :: 1 <= k ==> !OccursAt(s, p, k) by {
          forall k | 1 <= k ensures !OccursAt(s, p, k) { assert !OccursAt(s[1..], p, k - 1); }
        }
        None
      else
        assert forall k :: 1 <= k < r.value + 1 ==> !OccursAt(s, p, k) by {
          forall k | 1 <= k < r.value + 1 ensures !OccursAt(s, p, k) { assert !OccursAt(s[1..], p, k - 1); }
        }
        Some(r.value + 1)
  }

  /** `s.replace(s.find(p), |p|, rep)` when `p` occurs; `s` otherwise. */
  function ReplaceFirst(s: string, p: string, rep: string): (r: string)
    ensures FindSub(s, p).None? ==> r == s
    ensures FindSub(s, p).Some? ==> var i := FindSub(s, p).value;
      |r| == |s| - |p| + |rep| && r[..i] == s[..i] && r[i..i + |rep|] == rep && r[i + |rep|..] == s[i + |p|..]
  {
    match FindSub(s, p)
    case None => s
    case Some(i) => s[..i] + rep + s[i + |p|..]
  }
}

=== FILE: utilities.dfy ===
/** src/Utilities.cpp: the copy of `parseNumberString` that collects the
    numbers as ROOT's unsigned `UInt_t`. */
module Utilities {
  import opened Wrappers
  import opened Seqs
  import opened StdText
  import opened NumberString

  /** ROOT's `UInt_t`, a 32-bit unsigned integer. */
  newtype UInt = x: int | 0 <= x < 0x1_0000_0000

  /** The implicit `Int_t` to `UInt_t` conversion in `push_back(i)`: the
      value modulo 2^32. */
  function ToUInt(i: int): (u: UInt)
    ensures 0 <= i < 0x1_0000_0000 ==> u as int == i
    ensures IntMin <= i < 0 ==> u as int == i + 0x1_0000_0000
  {
    (i % 0x1_0000_0000) as UInt
  }

  function ToUInts(ns: seq<int>): (us: seq<UInt>)
    ensures |us| == |ns|
    ensures forall k :: 0 <= k < |ns| ==> us[k] == ToUInt(ns[k])
  {
    seq(|ns|, k requires 0 <= k < |ns| => ToUInt(ns[k]))
  }

  /** `Utilities::parseNumberString`: the same `getline` loop as the copy
      in src/Experiment.cpp, pushing each `Int_t` into a vector of `UInt_t`. */
  method ParseNumberString(numberString: string) returns (r: Option<seq<UInt>>)
    ensures r == Converted(ParseNumbers(numberString))
  {
    var numbers: seq<UInt> := [];
    ghost var values: seq<int> := [];
    var rest := numberString;
    ConcatNothing(ParseNumbers(rest));
    while rest != []
      invariant ParseNumbers(numberString) == Concat(Some(values), ParseNumbers(rest))
      invariant numbers == ToUInts(values)
      decreases |rest|
    {
      var token, after;
      match IndexOf(rest, ',') {
        case None =>
          token, after := rest, [];
        case Some(i) =>
          token, after := rest[..i], rest[i + 1..];
      }
      ParseNumbersStep(rest, token, after);
      var pushed := PushToken(numbers, token);
      if pushed.None? {
        return None;
      }
      ConcatShift(values, ExpandToken(token).value, ParseNumbers(after));
      ToUIntsAppend(values, ExpandToken(token).value);
      numbers := pushed.value;
      values := values + ExpandToken(token).value;
      rest := after;
    }
    assert Split([], ',') == [];
    assert values + [] == values;
    return Some(numbers);
  }

  /** One token of the loop: its range or its single number pushed after
      `numbers`, or `None` where `std::stoi` throws. */
  method PushToken(numbers: seq<UInt>, token: string) returns (r: Option<seq<UInt>>)
    ensures ExpandToken(token).None? <==> r.None?
    ensures r.Some? ==> r.value == numbers + ToUInts(ExpandToken(token).value)
  {
    var dash := IndexOf(token, '-');
    if dash.Some? {
      var start := Stoi(token[..dash.value]);
      var end := Stoi(token[dash.value + 1..]);
      if start.None? || end.None? {
        return None;
      }
      var pushed := PushRange(numbers, start.value, end.value);
      return Some(pushed);
    }
    var n := Stoi(token);
    if n.None? {
      return None;
    }
    return Some(numbers + [ToUInt(n.value)]);
  }

  /** The numbers converted to `UInt_t`, or the failure. */
  function Converted(o: Option<seq<int>>): (r: Option<seq<UInt>>)
    ensures r.None? <==> o.None?
    ensures r.Some? ==> r.value == ToUInts(o.value)
  {
    match o
    case None => None
    case Some(ns) => Some(ToUInts(ns))
  }

  /** Both copies agree: since no parsed number is negative, the conversion
      to `UInt_t` never changes a value. */
  lemma {:induction false} CopiesAgree(s: string)
    ensures Converted(ParseNumbers(s)).None? <==> ParseNumbers(s).None?
    ensures ParseNumbers(s).Some? ==>
      var us, ns := Converted(ParseNumbers(s)).value, ParseNumbers(s).value;
      |us| == |ns| && forall k :: 0 <= k < |us| ==> us[k] as int == ns[k]
  {
    var o := ParseNumbers(s);
    if o.Some? {
      assert InIntRange(o.value);
    }
  }

  lemma ToUIntsAppend(a: seq<int>, b: seq<int>)
    ensures ToUInts(a + b) == ToUInts(a) + ToUInts(b)
  {
  }

  /** The range loop, pushing converted values. */
  method PushRange(numbers: seq<UInt>, start: int, end: int) returns (r: seq<UInt>)
    ensures r == numbers + ToUInts(Range(start, end))
  {
    r := numbers;
    assert r + ToUInts(Range(start, start - 1)) == r;
    var i := start;
    while i <= end
      invariant start <= i <= if start <= end then end + 1 else start
      invariant r == numbers + ToUInts(Range(start, i - 1))
      decreases end - i
    {
      ToUIntsAppend(Range(start, i - 1), [i]);
      r := r + [ToUInt(i)];
      i := i + 1;
    }
  }
}

=== FILE: wrappers.dfy ===
/** Option and Result: the error paths that the C++ source signals with null
    pointers, `npos` and exceptions. */
module Wrappers {

  datatype Option<+T> = None | Some(value: T)

  datatype Result<+T, +E> = Ok(value: T) | Err(error: E)
}
